=== FILE: README.md ===
# Direct3D 11 backend core of ANGLE, modelled in Dafny

This project models three pieces of sequential logic in the Direct3D 11 renderer of ANGLE (the OpenGL ES implementation on top of Direct3D). Each piece is modelled as immutable state plus pure functions, with its contracts and lemmas proved.

- **Buffer-to-texture copy** (`PixelTransfer11`, files `copy_params.dfy`, `device_context.dfy`, `pixel_transfer.dfy`).
  - The integer fields of the copy shaders' constant block.
  - The once-only `loadResources` initialisation and `buildShaderMap`.
  - The pixel-shader lookup by component type.
  - `copyBufferToTexture` itself. The device-context calls it makes are an abstract command stream, interpreted by `DeviceContext.Apply`. Each draw is recorded with the bindings it saw and the constants its vertex constant buffer held.
- **Lazy resources, ownership and error classification** (`renderer11_utils.h`, files `device_lost.dfy`, `lazy_resource.dfy`, `texture_helper.dfy`).
  - `isDeviceLostError`.
  - `LazyShader::resolve` and `checkAssociatedDevice`.
  - `LazyResource2::resolveImpl`, `get` and `reset`.
  - The `GenericData` destructor and its shared ownership.
  - `TextureHelper11::set`, `init`, `is2D` and `is3D`.
- **Workaround flag records** (`WorkaroundsD3D.h`, file `workarounds.dfy`): `D3DCompilerWorkarounds` and `WorkaroundsD3D` with every flag off by default.

`common.dfy` holds the shared vocabulary:
- `Option` and `Result`;
- `GlError`, a GL error code with its message;
- `Extents` and `Box`;
- the 32-bit `unsigned int` and the wrap of a `static_cast<unsigned int>`.

Native objects are identities (`Handle`). Whatever a native call returns is a parameter, for example:
- a compiled shader, which may be null;
- an allocation, which may fail;
- the source buffer's shader-resource view.

Counters and event logs record the create, notify and release calls.

## Model

| member | source | states |
|---|---|---|
| Common.ToUnsigned | src/libANGLE/renderer/d3d/d3d11/PixelTransfer11.cpp:146 | a signed value cast to `unsigned int` is unchanged when it fits and wraps by 2^32 when it is negative |
| CopyParams.RoundUp | src/libANGLE/renderer/d3d/d3d11/PixelTransfer11.cpp:147 | the row pitch is a multiple of the alignment; without 32-bit wrap it is at least the value and less than value + alignment |
| CopyParams.RoundUpIsLeastMultiple | src/libANGLE/renderer/d3d/d3d11/PixelTransfer11.cpp:147 | without wrap, the rounded pitch is no larger than any multiple of the alignment that is at least the value, so it is the least such multiple |
| CopyParams.AlignmentPixels | src/libANGLE/renderer/d3d/d3d11/PixelTransfer11.cpp:141-143 | the alignment in pixels is at least 1; it is 1 when the byte alignment is no larger than a pixel, and otherwise the number of whole pixels the alignment spans |
| CopyParams.UnpackAlignmentPixels | src/libANGLE/renderer/d3d/d3d11/PixelTransfer11.cpp:142-143 | the pixel alignment derived from an unpack state is never zero |
| CopyParams.SetBufferToTextureCopyParams | src/libANGLE/renderer/d3d/d3d11/PixelTransfer11.cpp:133-154 | FirstPixelOffset is the byte offset divided by the pixel size, rounded down; PixelsPerRow is the row length if positive, else the region width; RowStride is a multiple of the pixel alignment in [PixelsPerRow, PixelsPerRow + alignment); RowsPerSlice is the region height and FirstSlice the region's z (when they fit in 32 bits); the position fields depend only on the region origin and the destination width and height |
| CopyParams.RowStrideExamples | src/libANGLE/renderer/d3d/d3d11/PixelTransfer11.cpp:147 | with a 4-byte alignment and 4-byte pixels the pitch equals PixelsPerRow; with an 8-byte alignment, 4-byte pixels and width 3 the pitch is 4 |
| DeviceLost.IsDeviceLostError | src/libANGLE/renderer/d3d/d3d11/renderer11_utils.h:172-185 | a code means device loss exactly when it is one of DEVICE_HUNG, DEVICE_REMOVED, DEVICE_RESET, DRIVER_INTERNAL_ERROR and NOT_CURRENTLY_AVAILABLE |
| DeviceLost.DeviceLostIsDxgiFailure | src/libANGLE/renderer/d3d/d3d11/renderer11_utils.h:172-185 | every device-lost code is a failing code of the DXGI facility, no success code is classified as device loss, and there are exactly five such codes |
| LazyResource.NewLazyShader | src/libANGLE/renderer/d3d/d3d11/renderer11_utils.h:248 | a new lazy shader caches nothing, is pinned to no device and has leaked nothing |
| LazyResource.CheckAssociatedDevice | src/libANGLE/renderer/d3d/d3d11/renderer11_utils.h:292-297 | callable only when no device or the same device is stored; afterwards the argument is stored, nothing else changes, and a pinned shader is unchanged |
| LazyResource.Resolve | src/libANGLE/renderer/d3d/d3d11/renderer11_utils.h:321-352 | for every stage: with an object cached, resolve returns it and does not compile; otherwise it compiles exactly once and returns the compiler's result; the device is pinned; the result is what is cached; created objects are cached or released |
| LazyResource.Release | src/libANGLE/renderer/d3d/d3d11/renderer11_utils.h:252 | release forgets the cached object, releasing it once if there was one; the pinned device stays |
| LazyResource.ResolveIsCached | src/libANGLE/renderer/d3d/d3d11/renderer11_utils.h:321-352 | once a resolve produced an object, a second resolve returns the same object with no further compile, whatever the compiler would return |
| LazyResource.RunPinsOneDevice | src/libANGLE/renderer/d3d/d3d11/renderer11_utils.h:292-352 | in any run of resolves and releases that does not trip the device assertion, every resolve used the one device the shader ends pinned to, a pinned device never changes, and created objects stay balanced with cached plus released ones |
| LazyResource.NewLazyResource2 | src/libANGLE/renderer/d3d/d3d11/renderer11_utils.h:265 | a new resource is invalid and has allocated nothing |
| LazyResource.Get | src/libANGLE/renderer/d3d/d3d11/renderer11_utils.h:270-274 | get is only defined on a valid resource and returns the held object |
| LazyResource.Reset | src/libANGLE/renderer/d3d/d3d11/renderer11_utils.h:269 | reset leaves the resource invalid |
| LazyResource.ResolveImpl | src/libANGLE/renderer/d3d/d3d11/renderer11_utils.h:277-287 | a valid resource is returned untouched with no allocation; otherwise exactly one allocation is made; success stores the object; failure returns the allocator's error and leaves the resource invalid; the result is NoError exactly when the resource ends valid |
| LazyResource.RetryUntilFirstSuccess | src/libANGLE/renderer/d3d/d3d11/renderer11_utils.h:277-287 | repeated resolves after failures hold the first successful allocation, having allocated once per attempt up to and including it; if all attempts fail the resource stays invalid |
| LazyResource.StaysResolved | src/libANGLE/renderer/d3d/d3d11/renderer11_utils.h:281-285 | a valid resource is neither reallocated nor replaced by any number of later resolves |
| TextureHelper.DestroyGenericData | src/libANGLE/renderer/d3d/d3d11/renderer11_utils.h:416-429 | with no object nothing happens; with an object, the manager (if set) is notified first, exactly once, the object is released last, exactly once, and both are left null |
| TextureHelper.SharedReleaseOnce | src/libANGLE/renderer/d3d/d3d11/renderer11_utils.h:413-437 | under any sequence of copies and drops of the shared data, nothing is released while an owner remains, and after the last drop the object was released exactly once and the manager notified at most once |
| TextureHelper.CopiesThenDrops | src/libANGLE/renderer/d3d/d3d11/renderer11_utils.h:413-437 | n copies followed by n + 1 drops end with no owner, the object released exactly once and the manager notified once if there is one |
| TextureHelper.NewTextureHelper | src/libANGLE/renderer/d3d/d3d11/renderer11_utils.h:431-433 | a default helper holds no object and is neither 2D nor 3D |
| TextureHelper.Is2D | src/libANGLE/renderer/d3d/d3d11/renderer11_utils.h:447-448 | a helper is never both 2D and 3D |
| TextureHelper.InitDesc | src/libANGLE/renderer/d3d/d3d11/renderer11_utils.h:489-490 | the cached type is 2D or 3D as the descriptor is; width and height come from the descriptor; depth is 1 for 2D; object, manager and format are untouched |
| TextureHelper.Set | src/libANGLE/renderer/d3d/d3d11/renderer11_utils.h:470-480 | callable only on a helper that holds no object; afterwards it holds the object with no manager and the given format, and is 2D or 3D as the object's descriptor is |
| TextureHelper.SetThenDestroy | src/libANGLE/renderer/d3d/d3d11/renderer11_utils.h:470-480 | an object attached with set is released exactly once by the destructor and no manager is notified |
| TextureHelper.Init | src/libANGLE/renderer/d3d/d3d11/renderer11_utils.h:456-467 | init exchanges the object and the manager between the helper and the source texture, keeps the texture's resource type, and caches the format and the descriptor's type |
| TextureHelper.InitThenDestroyBoth | src/libANGLE/renderer/d3d/d3d11/renderer11_utils.h:456-467 | after init, destroying both sides releases exactly the objects the two sides held before: nothing lost, nothing duplicated; since the resource type is not swapped, each object is reported to its manager under the type of the side it moved to, and when the helper was empty and the texture's type matches its descriptor these are exactly the notifications the two sides were due |
| Workarounds.DefaultCompilerWorkarounds | src/libANGLE/renderer/d3d/WorkaroundsD3D.h:18-25 | a default compiler-workaround record enables none of skipOptimization, useMaxOptimization and enableIEEEStrictness |
| Workarounds.CompilerWorkaroundsWith | src/libANGLE/renderer/d3d/WorkaroundsD3D.h:18-25 | the record built from a set of compiler flags enables exactly that set |
| Workarounds.CompilerFlagsRoundTrip | src/libANGLE/renderer/d3d/WorkaroundsD3D.h:18-25 | a compiler-workaround record is determined by its enabled flags |
| Workarounds.DefaultWorkarounds | src/libANGLE/renderer/d3d/WorkaroundsD3D.h:27-60 | a default record enables none of the six workarounds |
| Workarounds.WorkaroundsWith | src/libANGLE/renderer/d3d/WorkaroundsD3D.h:27-60 | the record built from a set of workarounds enables exactly that set |
| Workarounds.FlagsRoundTrip | src/libANGLE/renderer/d3d/WorkaroundsD3D.h:27-60 | a record is determined by its enabled workarounds, and the record with none enabled is the default one |
| PixelTransfer.NewEngine | src/libANGLE/renderer/d3d/d3d11/PixelTransfer11.cpp:36-45 | a new engine is not loaded, holds no shader and has leaked nothing |
| PixelTransfer.NullEntryIffMissingShader | src/libANGLE/renderer/d3d/d3d11/PixelTransfer11.cpp:255-266 | after the three insertions the map has a null entry if one of the new shaders is null, and, when it had no other keys, only then |
| PixelTransfer.BuildShaderMapWith | src/libANGLE/renderer/d3d/d3d11/PixelTransfer11.cpp:251-269 | the float, int and unsigned-int entries hold the new shaders and nothing else changes; in the corrected mode nothing leaks; success implies all three exist and, with no foreign keys, all three existing implies success; failure is GL_OUT_OF_MEMORY with the pixel-shader message |
| PixelTransfer.AllocateResources | src/libANGLE/renderer/d3d/d3d11/PixelTransfer11.cpp:79-107 | the three allocations succeed together; otherwise the error of the first failing allocation (rasterizer, then depth-stencil, then constant buffer) is returned, and the objects allocated before it are stored; on success the engine holds the three allocated objects; nothing else changes |
| PixelTransfer.CreateShaders | src/libANGLE/renderer/d3d/d3d11/PixelTransfer11.cpp:110-124 | with no foreign map keys, success exactly when the vertex shader, the geometry shader and the three pixel shaders all exist; success always implies all five slots are set; a null vertex shader returns the out-of-memory vertex-shader error before the geometry shader is created; a null geometry shader returns the geometry-shader error with the pixel-shader map untouched; any later failure is the pixel-shader error; in the corrected mode an existing shader is kept and nothing leaks |
| PixelTransfer.LoadResourcesWith | src/libANGLE/renderer/d3d/d3d11/PixelTransfer11.cpp:60-131 | once loaded, loading is a no-op; the loaded flag is set exactly when the call succeeds; with no foreign map keys, a first call succeeds exactly when the three allocations succeed and every shader slot ends up holding a shader; on a call that does the work, the error returned is that of the first failing step (rasterizer state, depth-stencil state, constant buffer, vertex shader, geometry shader, pixel shaders); no shader is released |
| PixelTransfer.LoadResourcesAsWritten | src/libANGLE/renderer/d3d/d3d11/PixelTransfer11.cpp:60-131 | the code as written: a no-op once loaded; the loaded flag is set exactly on success; with no foreign map keys, a first call succeeds exactly when the three allocations succeed and all five fresh shaders are non-null; the error returned is that of the first failing step |
| PixelTransfer.LoadResources | src/libANGLE/renderer/d3d/d3d11/PixelTransfer11.cpp:60-131 | corrected: a no-op once loaded; the loaded flag is set exactly on success; the error returned is that of the first failing step, and a rasterizer-state allocation failure changes nothing |
| PixelTransfer.LoadKeepsReady | src/libANGLE/renderer/d3d/d3d11/PixelTransfer11.cpp:124-128 | after any load attempt, a loaded engine holds every state object, the constant buffer and all five shaders |
| PixelTransfer.LoadResourcesOutcome | src/libANGLE/renderer/d3d/d3d11/PixelTransfer11.cpp:60-131 | a first load succeeds exactly when every allocation succeeds and every shader slot ends non-null; on success the shadow is zeroed and the engine holds the allocated states and buffer |
| PixelTransfer.LoadResourcesLeakFree | src/libANGLE/renderer/d3d/d3d11/PixelTransfer11.cpp:110-124 | corrected load: every shader ever created is still held or released, and shaders from an earlier attempt are kept |
| PixelTransfer.Destroy | src/libANGLE/renderer/d3d/d3d11/PixelTransfer11.cpp:47-58 | the destructor releases every held shader (skipping null ones) and empties the map; if nothing had leaked, every created shader has now been released |
| PixelTransfer.AllShadersReleased | src/libANGLE/renderer/d3d/d3d11/PixelTransfer11.cpp:47-131 | with the corrected load, after any number of failed or successful attempts, destroying the engine releases every shader it created |
| PixelTransfer.LoadRetryLeaksShader | src/libANGLE/renderer/d3d/d3d11/PixelTransfer11.cpp:112-122 | as written: a first attempt that fails on the geometry shader followed by a successful retry overwrites the vertex shader unreleased, so destruction releases one shader fewer than were created |
| PixelTransfer.NormalizeComponentType | src/libANGLE/renderer/d3d/d3d11/PixelTransfer11.cpp:273-277 | signed and unsigned normalised types are looked up as float, and every other type as itself |
| PixelTransfer.FindBufferToTexturePS | src/libANGLE/renderer/d3d/d3d11/PixelTransfer11.cpp:271-281 | float and both normalised types find the float entry, signed and unsigned integers find their own entry, and a type with no entry finds null |
| PixelTransfer.FindAfterLoad | src/libANGLE/renderer/d3d/d3d11/PixelTransfer11.cpp:271-281 | once loaded, a shader is found exactly for component types other than none; signed and unsigned normalised formats get the float shader; int and unsigned int get their own |
| PixelTransfer.DrawVertexCount | src/libANGLE/renderer/d3d/d3d11/PixelTransfer11.cpp:239 | the point count is width × height × depth of the region whenever that product fits in 32 bits |
| PixelTransfer.BindShaders | src/libANGLE/renderer/d3d/d3d11/PixelTransfer11.cpp:206-209 | after these calls the given vertex, geometry and pixel shaders and the source view are bound and nothing else changed |
| PixelTransfer.BindInputAssembly | src/libANGLE/renderer/d3d/d3d11/PixelTransfer11.cpp:210-213 | after these calls there is no input layout and no vertex buffer, and the topology is a point list |
| PixelTransfer.BindOutput | src/libANGLE/renderer/d3d/d3d11/PixelTransfer11.cpp:214-218 | after these calls blending is default, the copy's depth-stencil and rasterizer states are bound, and the destination is the render target |
| PixelTransfer.DrawPoints | src/libANGLE/renderer/d3d/d3d11/PixelTransfer11.cpp:226-240 | exactly one draw is recorded; it sees the constant buffer bound, its contents and the viewport |
| PixelTransfer.Unbind | src/libANGLE/renderer/d3d/d3d11/PixelTransfer11.cpp:242-246 | afterwards no source view and no constant buffer are bound, and all cached state is marked dirty |
| PixelTransfer.IssueCopy | src/libANGLE/renderer/d3d/d3d11/PixelTransfer11.cpp:203-246 | on a loaded engine, exactly one draw is added, with the copy pipeline and the new constants; the constants are uploaded exactly when they differ from the shadow; afterwards the shadow is the new constants and matches the buffer; the source view and the constant buffer are unbound and all cached state is marked dirty; the other bindings stay |
| PixelTransfer.CopyBufferToTexture | src/libANGLE/renderer/d3d/d3d11/PixelTransfer11.cpp:156-249 | callable only with the region inside the destination on all three axes; a load or view failure returns that error with no call made; on success there is exactly one draw; the geometry shader is bound exactly when the depth exceeds 1; the draw uses width × height × depth points and reads the computed parameters (which use the source format); the constants are uploaded only when they differ from the shadow; the source view and constant buffer are unbound afterwards; the engine afterwards is the one the corrected load left, which keeps the objects created before a failure, and after a success it is loaded, leak-free and its shadow is the new constants |

## Left out

- Floating point: `PositionOffset`, `PositionScale` and the texel-centre terms (PixelTransfer11.cpp:138-139, 149-152) are not computed. `CopyParams.SetBufferToTextureCopyParams` carries the integers they are derived from (`PositionInputs`).
- The zeroed shadow: it is `None` rather than an all-zero block. A computed block is never all zero, because its `PositionScale[0]` is 2 / width. `StructZero` of the output block (line 136): fields the function does not assign are taken to be zero and are omitted. The byte-wise compare at line 220 is modelled as equality of the modelled fields.
- `PixelTransfer.CopyBufferToTexture`: it calls the corrected `PixelTransfer.LoadResources`, while line 158 calls the leaking `loadResources`. Its leak-freedom, and which shaders are bound after a failed first attempt, describe the corrected code: the code as written binds the shaders of the latest attempt.
- `PixelTransfer.CopyBufferToTexture`: the bounds `ASSERT` (lines 163-165) is modelled as a precondition, as the code has it. A typed precondition error would be a change to the code, not a model of it.
- `PixelTransfer.CopyBufferToTexture`: the other assertions are also preconditions or parameters:
  - `supportsFastCopyBufferToTexture` is left out;
  - a pixel shader must exist for the destination format's component type;
  - the source view comes in as a non-null `Result`;
  - the render-target view is assumed valid.
- `PixelTransfer.DrawVertexCount`: the product is computed in signed `int` and then converted. The model states the wrap modulo 2^32; signed overflow, which is undefined behaviour in C++, is not distinguished.
- Native device-context calls (shader and state binding, `Draw`, `Map`/`Unmap` in `SetBufferData`, renderer11_utils.h:386-397): these are only the abstract commands of `DeviceContext`.
  - A failing `Map` (which skips the copy) is not modelled.
  - The state manager's own caching is not modelled.
- Resource descriptors and debug names: the rasterizer and depth-stencil descriptors, the constant-buffer size and the debug names are not modelled. Only the identity of each allocated object is.
- `PixelTransfer11.h`, `renderer11_utils.cpp` and the `roundUp` helper are not part of this model. The fields of `CopyShaderParams` are taken to be `unsigned int`, and `roundUp` to compute `temp - temp % alignment` on `unsigned int`.
- `TextureHelper.InitDesc`: `initDesc` (renderer11_utils.h:489-490) is not part of this model. The model assumes it reads width and height from the descriptor. A 2D descriptor gives depth 1 and its sample count; a 3D descriptor gives its depth and sample count 1.
- `TextureHelper.Set`: `set` writes through the shared `mData`, so every copy of the helper sees the new object. The model gives each helper its own record, and earlier copies are not updated.
- `TextureHelper.Init`: for the same reason, copies of the helper taken before `init` are not updated in the model.
- `TextureHelper11` copy and move constructors, assignment and comparison: their bodies are not part of this model. Shared ownership of `GenericData` through `std::shared_ptr` is modelled by `TextureHelper.RunOwners`.
- `Resource11Base::valid()` is taken to mean "holds an object".
- Not modelled:
  - The GL-to-D3D conversion functions, `GenerateCaps`, `GenerateWorkarounds`, `InitConstantBufferDesc`: only their declarations appear.
  - `DynamicCastComObject`, `SetDebugName` and COM reference counting: thin platform wrappers.
  - `LazyInputLayout` and `LazyBlendState`: their `resolve` bodies are not given.
- `LazyResource.Resolve`: the vertex, geometry and pixel specialisations differ only in the compile entry point, so one definition with a `Stage` tag stands for all three.
- Threading, the broadcast-channel aliases and the end-to-end GL test `RobustResourceInitTest.cpp` are outside this model.

## Findings

| source | as written | input that shows it | evidently intended | confidence | as-written member | corrected member |
|---|---|---|---|---|---|---|
| src/libANGLE/renderer/d3d/d3d11/PixelTransfer11.cpp:112-122 | `loadResources` assigns fresh `CompileVS`/`CompileGS` results, and `buildShaderMap` fresh `CompilePS` results (lines 255-257), to raw pointers without releasing what an earlier failed attempt stored there | a first `copyBufferToTexture` whose geometry-shader creation fails after the vertex shader was created, then a second call that succeeds: the first vertex shader is overwritten and never released | a retry keeps (or releases) shaders created by an earlier failed attempt, so every shader created is released by the destructor | medium, not executed | PixelTransfer.LoadRetryLeaksShader | PixelTransfer.LoadResources |

`PixelTransfer.LoadResourcesAsWritten` models the code as written. `PixelTransfer.LoadResources` creates a shader only while its slot is empty, the rule `LazyShader::resolve` follows. `PixelTransfer.AllShadersReleased` proves that, with it, nothing leaks across any sequence of attempts. `PixelTransfer.CopyBufferToTexture` uses the corrected version.

=== FILE: common.dfy ===
/**
 Shared vocabulary of the Direct3D 11 backend model: optional native objects,
 GL-style errors, and 32-bit unsigned integers with the wrap-around of a C++
 `static_cast<unsigned int>`.
 */
module Common {

  /** Identity of a native object (shader, state object, buffer, view, texture).
      A null pointer is `None` in an `Option<Handle>`. */
  type Handle = nat

  /** Identity of a native device (`ID3D11Device *`). */
  type Device = nat

  datatype Option<+T> = None | Some(value: T)

  /** The GL error codes the modelled code produces. */
  const GL_OUT_OF_MEMORY: int := 0x0505

  /** `gl::Error`: a GL error code with a message. */
  datatype GlError = GlError(code: int, message: string)

  /** `gl::Error` as returned by a call: `NoError` or a failure. */
  datatype Status = NoError | Failed(error: GlError)

  /** A value or the error that prevented computing it
      (`gl::ErrorOrResult`, or an allocation into an out-parameter). */
  datatype Result<+T> = Ok(value: T) | Err(error: GlError)

  /** `gl::Extents`: the size of a texture level. */
  datatype Extents = Extents(width: int, height: int, depth: int)

  /** `gl::Box`: a region of a texture level, origin and size. */
  datatype Box = Box(x: int, y: int, z: int, width: int, height: int, depth: int)

  const UINT32_LIMIT: int := 0x1_0000_0000

  /** `unsigned int` on the platforms the backend targets. */
  type uint32 = x: int | 0 <= x < UINT32_LIMIT

  /** `static_cast<unsigned int>(x)` of a signed value: reduction modulo 2^32
      (two's complement reinterpretation). Dafny's `%` is Euclidean, so the
      result is never negative. */
  function ToUnsigned(x: int): (r: uint32)
    ensures 0 <= x < UINT32_LIMIT ==> r == x
    ensures -UINT32_LIMIT <= x < 0 ==> r == x + UINT32_LIMIT
  {
    x % UINT32_LIMIT
  }
}

=== FILE: copy_params.dfy ===
/**
 The integer half of the constant block of the buffer-to-texture copy
 (`setBufferToTextureCopyParams`): where the first source pixel is, how many
 pixels a source row holds, the row pitch rounded up to the unpack
 alignment, rows per slice and the first destination slice.

 The floating-point fields `PositionOffset` and `PositionScale` map the
 destination region into clip space; they are a function of the region's
 origin and the destination's width and height, and the model carries those
 integers (`PositionInputs`) in their place.
 */
module CopyParams {
  import opened Common

  /** The component types of the GL format table. */
  datatype ComponentType = Float | Int | UnsignedInt | SignedNormalized | UnsignedNormalized | NoComponent

  /** The entry `gl::GetSizedInternalFormatInfo` returns for a sized format:
      bytes per pixel and component type. */
  datatype InternalFormatInfo = InternalFormatInfo(pixelBytes: uint32, componentType: ComponentType)

  /** The fields of `gl::PixelUnpackState` this copy reads. */
  datatype PixelUnpackState = PixelUnpackState(alignment: int, rowLength: int)

  /** The inputs of the floating-point position offset and scale. */
  datatype PositionInputs = PositionInputs(destX: int, destY: int, destWidth: int, destHeight: int)

  /** `CopyShaderParams`, the constant block read by the copy shaders. */
  datatype CopyShaderParams = CopyShaderParams(
    firstPixelOffset: uint32,
    pixelsPerRow: uint32,
    rowStride: uint32,
    rowsPerSlice: uint32,
    firstSlice: uint32,
    position: PositionInputs)

  /** `roundUp(value, alignment)` on `unsigned int`: the next multiple of
      `alignment`, computed as `temp - temp % alignment` with
      `temp = value + alignment - 1` wrapping modulo 2^32. */
  function RoundUp(value: uint32, alignment: uint32): (r: uint32)
    requires alignment > 0
    ensures r % alignment == 0
    ensures value + alignment <= UINT32_LIMIT ==> value <= r < value + alignment
  {
    var temp := (value + alignment - 1) % UINT32_LIMIT;
    DivisionFacts(temp, alignment);
    temp - temp % alignment
  }

  /** Euclidean division of a non-negative number: the quotient times the
      divisor is a multiple of the divisor, at most the number and more than
      the number minus the divisor. */
  lemma DivisionFacts(x: nat, a: int)
    requires a > 0
    ensures (x - x % a) == (x / a) * a
    ensures (x - x % a) % a == 0
    ensures x - a < x - x % a <= x
  {
    ModOfMultiple(x / a, a);
  }

  /** Division rounds down: the quotient is the largest multiple count that
      fits. */
  lemma FloorDivisionBounds(x: nat, a: int)
    requires a > 0
    ensures (x / a) * a <= x < (x / a + 1) * a
    ensures 0 <= x / a <= x
  {
    DivisionFacts(x, a);
    assert (x / a) * a > (-1) * a;
    MulCancelStrict(x / a, -1, a);
    assert (x / a + 1) * a == (x / a) * a + a;
    MulMonotone(1, a, x / a);
  }

  /** A multiple of a positive number leaves no remainder. */
  lemma ModOfMultiple(q: int, a: int)
    requires a > 0
    ensures (q * a) % a == 0
  {
    var x := q * a;
    var k := q - x / a;
    assert x == a * (x / a) + x % a;
    assert a * k == x % a;
    MulSignBounds(k, a);
  }

  /** A non-zero multiple of a positive number is at least that number in
      magnitude. */
  lemma MulSignBounds(k: int, a: int)
    requires a > 0
    ensures k >= 1 ==> a * k >= a
    ensures k <= -1 ==> a * k <= -a
  {
  }

  /** Multiplying by a non-negative number preserves order. */
  lemma MulMonotone(a: int, b: int, c: nat)
    requires a <= b
    ensures a * c <= b * c
  {
  }

  /** Cancelling a positive factor preserves a strict inequality. */
  lemma MulCancelStrict(k: int, j: int, a: int)
    requires a > 0 && k * a > j * a
    ensures k > j
  {
  }

  /** Without wrap-around, `roundUp` is the least multiple of the alignment
      that is at least the value. */
  lemma RoundUpIsLeastMultiple(value: uint32, alignment: uint32, m: int)
    requires alignment > 0 && value + alignment <= UINT32_LIMIT
    requires m >= value && m % alignment == 0
    ensures RoundUp(value, alignment) <= m
  {
    var temp := value + alignment - 1;
    var q := temp / alignment;
    DivisionFacts(temp, alignment);
    var k := m / alignment;
    assert m == k * alignment;
    assert (q - 1) * alignment == q * alignment - alignment;
    assert k * alignment > (q - 1) * alignment;
    MulCancelStrict(k, q - 1, alignment);
    MulMonotone(q, k, alignment);
  }

  /** The unpack alignment expressed in whole pixels: one pixel when the
      alignment is no larger than a pixel, otherwise the number of whole
      pixels the alignment spans. */
  function AlignmentPixels(alignmentBytes: uint32, bytesPerPixel: uint32): (r: uint32)
    requires bytesPerPixel > 0
    ensures r >= 1
    ensures alignmentBytes <= bytesPerPixel ==> r == 1
    ensures alignmentBytes > bytesPerPixel ==>
              r * bytesPerPixel <= alignmentBytes < (r + 1) * bytesPerPixel
  {
    if alignmentBytes <= bytesPerPixel then 1 else alignmentBytes / bytesPerPixel
  }

  /** The alignment in pixels for an unpack state and source format. */
  function UnpackAlignmentPixels(unpack: PixelUnpackState, format: InternalFormatInfo): (r: uint32)
    requires format.pixelBytes > 0
    ensures r >= 1
  {
    AlignmentPixels(ToUnsigned(unpack.alignment), format.pixelBytes)
  }

  /** `setBufferToTextureCopyParams(destArea, destSize, internalFormat,
      unpack, offset)`, with `format` the table entry of `internalFormat`. */
  function SetBufferToTextureCopyParams(
    destArea: Box, destSize: Extents, format: InternalFormatInfo,
    unpack: PixelUnpackState, offset: uint32): (p: CopyShaderParams)
    requires format.pixelBytes > 0
    ensures p.firstPixelOffset * format.pixelBytes <= offset < (p.firstPixelOffset + 1) * format.pixelBytes
    ensures 0 < unpack.rowLength < UINT32_LIMIT ==> p.pixelsPerRow == unpack.rowLength
    ensures unpack.rowLength <= 0 && 0 <= destArea.width < UINT32_LIMIT ==> p.pixelsPerRow == destArea.width
    ensures p.rowStride % UnpackAlignmentPixels(unpack, format) == 0
    ensures p.pixelsPerRow + UnpackAlignmentPixels(unpack, format) <= UINT32_LIMIT ==>
              p.pixelsPerRow <= p.rowStride < p.pixelsPerRow + UnpackAlignmentPixels(unpack, format)
    ensures 0 <= destArea.height < UINT32_LIMIT ==> p.rowsPerSlice == destArea.height
    ensures 0 <= destArea.z < UINT32_LIMIT ==> p.firstSlice == destArea.z
    ensures p.position == PositionInputs(destArea.x, destArea.y, destSize.width, destSize.height)
  {
    FloorDivisionBounds(offset, format.pixelBytes);
    var alignmentPixels := UnpackAlignmentPixels(unpack, format);
    var pixelsPerRow := ToUnsigned(if unpack.rowLength > 0 then unpack.rowLength else destArea.width);
    CopyShaderParams(
      offset / format.pixelBytes,
      pixelsPerRow,
      RoundUp(pixelsPerRow, alignmentPixels),
      ToUnsigned(destArea.height),
      ToUnsigned(destArea.z),
      PositionInputs(destArea.x, destArea.y, destSize.width, destSize.height))
  }

  /** The two worked cases of the row pitch: with a 4-byte alignment and
      4-byte pixels the pitch is the row length itself, for any region; with
      an 8-byte alignment and 4-byte pixels the alignment is two pixels, and a
      3-pixel-wide region gets a pitch of 4. */
  lemma RowStrideExamples(destArea: Box, destSize: Extents, componentType: ComponentType, offset: uint32, rowLength: int)
    ensures var p := SetBufferToTextureCopyParams(
              destArea, destSize, InternalFormatInfo(4, componentType), PixelUnpackState(4, rowLength), offset);
            p.rowStride == p.pixelsPerRow
    ensures var format := InternalFormatInfo(4, componentType);
            var unpack := PixelUnpackState(8, 0);
            var p := SetBufferToTextureCopyParams(destArea.(width := 3), destSize, format, unpack, offset);
            UnpackAlignmentPixels(unpack, format) == 2 && p.pixelsPerRow == 3 && p.rowStride == 4
  {
  }
}

=== FILE: device_context.dfy ===
/**
 An abstract immediate device context: the bindings the copy path changes,
 the contents of small constant buffers, and a record of every draw with the
 bindings and constants it saw. `Apply` interprets one device-context call;
 it is the reference against which the copy path's effects are stated.
 */
module DeviceContext {
  import opened Common
  import opened CopyParams

  datatype Topology = UndefinedTopology | PointList

  /** `D3D11_VIEWPORT`; the depth range is always [0, 1] here. */
  datatype Viewport = Viewport(topLeftX: int, topLeftY: int, width: int, height: int)

  /** The pipeline bindings the copy path touches. `None` is a null binding
      (for the blend state: the default state, blending disabled). */
  datatype Pipeline = Pipeline(
    vertexShader: Option<Handle>,
    geometryShader: Option<Handle>,
    pixelShader: Option<Handle>,
    pixelResource: Option<Handle>,
    inputLayout: Option<Handle>,
    topology: Topology,
    vertexBuffer: Option<Handle>,
    blendState: Option<Handle>,
    depthStencilState: Option<Handle>,
    rasterizerState: Option<Handle>,
    renderTarget: Option<Handle>,
    vertexConstantBuffer: Option<Handle>,
    viewport: Option<Viewport>)

  /** One draw: the bindings in effect, the constants the bound vertex
      constant buffer held, and the number of vertices. */
  datatype DrawRecord = DrawRecord(pipeline: Pipeline, constants: Option<CopyShaderParams>, vertexCount: uint32)

  /** The context: bindings, constant-buffer contents, the draws issued, how
      many constant-buffer uploads were made, and whether the renderer has
      been told that all its cached state is stale. */
  datatype Context = Context(
    pipeline: Pipeline,
    bufferContents: map<Handle, CopyShaderParams>,
    draws: seq<DrawRecord>,
    uploads: nat,
    allStateDirty: bool)

  /** The device-context (and state-manager) calls the copy path makes. */
  datatype Command =
    | SetVertexShader(vs: Option<Handle>)
    | SetGeometryShader(gs: Option<Handle>)
    | SetPixelShader(ps: Option<Handle>)
    | SetPixelShaderResource(srv: Option<Handle>)
    | SetInputLayout(layout: Option<Handle>)
    | SetPrimitiveTopology(topology: Topology)
    | SetVertexBuffer(buffer: Option<Handle>)
    | SetBlendState(blend: Option<Handle>)
    | SetDepthStencilState(depthStencil: Option<Handle>)
    | SetRasterizerState(rasterizer: Option<Handle>)
    | SetRenderTarget(rtv: Option<Handle>)
    | SetBufferData(target: Handle, params: CopyShaderParams)
    | SetVertexConstantBuffer(constantBuffer: Option<Handle>)
    | SetViewport(viewport: Viewport)
    | Draw(vertexCount: uint32)
    | MarkAllStateDirty

  /** The constants a draw would read through `p`'s vertex constant buffer. */
  function BoundConstants(p: Pipeline, contents: map<Handle, CopyShaderParams>): Option<CopyShaderParams>
  {
    if p.vertexConstantBuffer.Some? && p.vertexConstantBuffer.value in contents
    then Some(contents[p.vertexConstantBuffer.value])
    else None
  }

  /** The effect of one call on the context. */
  function Apply(ctx: Context, cmd: Command): Context
  {
    var p := ctx.pipeline;
    match cmd
    case SetVertexShader(vs) => ctx.(pipeline := p.(vertexShader := vs))
    case SetGeometryShader(gs) => ctx.(pipeline := p.(geometryShader := gs))
    case SetPixelShader(ps) => ctx.(pipeline := p.(pixelShader := ps))
    case SetPixelShaderResource(srv) => ctx.(pipeline := p.(pixelResource := srv))
    case SetInputLayout(layout) => ctx.(pipeline := p.(inputLayout := layout))
    case SetPrimitiveTopology(t) => ctx.(pipeline := p.(topology := t))
    case SetVertexBuffer(b) => ctx.(pipeline := p.(vertexBuffer := b))
    case SetBlendState(b) => ctx.(pipeline := p.(blendState := b))
    case SetDepthStencilState(ds) => ctx.(pipeline := p.(depthStencilState := ds))
    case SetRasterizerState(rs) => ctx.(pipeline := p.(rasterizerState := rs))
    case SetRenderTarget(rtv) => ctx.(pipeline := p.(renderTarget := rtv))
    case SetBufferData(b, params) =>
      ctx.(bufferContents := ctx.bufferContents[b := params], uploads := ctx.uploads + 1)
    case SetVertexConstantBuffer(cb) => ctx.(pipeline := p.(vertexConstantBuffer := cb))
    case SetViewport(v) => ctx.(pipeline := p.(viewport := Some(v)))
    case Draw(n) =>
      ctx.(draws := ctx.draws + [DrawRecord(p, BoundConstants(p, ctx.bufferContents), n)])
    case MarkAllStateDirty => ctx.(allStateDirty := true)
  }

  /** The context after `cmds`, in order. */
  function Replay(ctx: Context, cmds: seq<Command>): Context
    decreases |cmds|
  {
    if |cmds| == 0 then ctx else Apply(Replay(ctx, cmds[..|cmds| - 1]), cmds[|cmds| - 1])
  }

  /** Number of `Draw` calls in `cmds`. */
  function DrawCount(cmds: seq<Command>): nat
    decreases |cmds|
  {
    if |cmds| == 0 then 0
    else DrawCount(cmds[..|cmds| - 1]) + (if cmds[|cmds| - 1].Draw? then 1 else 0)
  }

  /** Replaying a stream records one draw per `Draw` call and keeps the
      draws recorded before it. */
  lemma {:induction false} ReplayRecordsDraws(ctx: Context, cmds: seq<Command>)
    ensures |Replay(ctx, cmds).draws| == |ctx.draws| + DrawCount(cmds)
    ensures Replay(ctx, cmds).draws[..|ctx.draws|] == ctx.draws
    decreases |cmds|
  {
    if |cmds| > 0 {
      var prefix := cmds[..|cmds| - 1];
      ReplayRecordsDraws(ctx, prefix);
      var before := Replay(ctx, prefix);
      var after := Apply(before, cmds[|cmds| - 1]);
      if cmds[|cmds| - 1].Draw? {
        assert after.draws[..|ctx.draws|] == before.draws[..|ctx.draws|];
      }
    }
  }

  /** Issues `c` after `cmds`: the stream grows by `c` and the context by
      its effect. */
  method Issue(ctx0: Context, cmds: seq<Command>, ctx: Context, c: Command)
    returns (cmds': seq<Command>, ctx': Context)
    requires ctx == Replay(ctx0, cmds)
    ensures cmds' == cmds + [c] && ctx' == Apply(ctx, c)
    ensures ctx' == Replay(ctx0, cmds')
    ensures DrawCount(cmds') == DrawCount(cmds) + (if c.Draw? then 1 else 0)
    ensures |ctx'.draws| == |ctx0.draws| + DrawCount(cmds') && ctx'.draws[..|ctx0.draws|] == ctx0.draws
  {
    cmds' := cmds + [c];
    assert cmds'[..|cmds'| - 1] == cmds;
    ctx' := Apply(ctx, c);
    ReplayRecordsDraws(ctx0, cmds');
  }
}

=== FILE: device_lost.dfy ===
/**
 Classification of native result codes: `isDeviceLostError` decides whether
 an `HRESULT` returned by the device means the device can no longer be used
 (it must then be reset by whoever owns it; this layer does not recover).
 */
module DeviceLost {
  import opened Common

  /** `HRESULT`: a signed 32-bit status word. */
  type HResult = x: int | -0x8000_0000 <= x < 0x8000_0000

  /** The `HRESULT` whose bit pattern, read as unsigned, is `bits`. */
  function FromBits(bits: uint32): HResult
  {
    if bits < 0x8000_0000 then bits else bits - UINT32_LIMIT
  }

  /** The DXGI status codes of the Windows SDK that signal device loss. */
  const DXGI_ERROR_DEVICE_REMOVED: HResult := FromBits(0x887A_0005)
  const DXGI_ERROR_DEVICE_HUNG: HResult := FromBits(0x887A_0006)
  const DXGI_ERROR_DEVICE_RESET: HResult := FromBits(0x887A_0007)
  const DXGI_ERROR_DRIVER_INTERNAL_ERROR: HResult := FromBits(0x887A_0020)
  const DXGI_ERROR_NOT_CURRENTLY_AVAILABLE: HResult := FromBits(0x887A_0022)
  const S_OK: HResult := 0

  /** The facility field (bits 16..28) of the DXGI status codes. */
  const FACILITY_DXGI: int := 0x87A

  /** `FAILED(hr)`: the severity bit is set. */
  predicate IsFailure(hr: HResult)
  {
    hr < 0
  }

  /** `HRESULT_FACILITY(hr)`. */
  function Facility(hr: HResult): int
  {
    (ToUnsigned(hr) / 0x1_0000) % 0x2000
  }

  /** The codes treated as device loss, as a set. */
  function DeviceLostCodes(): set<HResult>
  {
    {DXGI_ERROR_DEVICE_HUNG, DXGI_ERROR_DEVICE_REMOVED, DXGI_ERROR_DEVICE_RESET,
     DXGI_ERROR_DRIVER_INTERNAL_ERROR, DXGI_ERROR_NOT_CURRENTLY_AVAILABLE}
  }

  /** `isDeviceLostError`: true for exactly the five device-loss codes. */
  predicate IsDeviceLostError(errorCode: HResult)
    ensures IsDeviceLostError(errorCode) <==> errorCode in DeviceLostCodes()
  {
    if errorCode == DXGI_ERROR_DEVICE_HUNG then true
    else if errorCode == DXGI_ERROR_DEVICE_REMOVED then true
    else if errorCode == DXGI_ERROR_DEVICE_RESET then true
    else if errorCode == DXGI_ERROR_DRIVER_INTERNAL_ERROR then true
    else if errorCode == DXGI_ERROR_NOT_CURRENTLY_AVAILABLE then true
    else false
  }

  /** A device-loss code is a failure from the DXGI facility; in particular a
      successful call (`S_OK`, or any code without the severity bit) is never
      classified as device loss, and there are five distinct such codes. */
  lemma DeviceLostIsDxgiFailure(errorCode: HResult)
    ensures IsDeviceLostError(errorCode) ==> IsFailure(errorCode) && Facility(errorCode) == FACILITY_DXGI
    ensures !IsFailure(errorCode) ==> !IsDeviceLostError(errorCode)
    ensures |DeviceLostCodes()| == 5
  {
  }
}

=== FILE: lazy_resource.dfy ===
/**
 Lazily created native objects of the D3D11 renderer.

 `LazyShader` (a `LazyResource` specialised for vertex, geometry and pixel
 shaders) compiles its byte code on the first `resolve` that finds no cached
 object and pins itself to the device of its first `resolve`. The three stage
 specialisations differ only in which device entry point compiles the byte
 code, so one definition covers them; the result of that entry point (`None`
 when creation fails) is a parameter.

 `LazyResource2` allocates a state object from its descriptor on the first
 `resolveImpl` that finds the resource invalid. An allocation failure is
 returned to the caller and leaves the resource invalid, so a later call
 retries.
 */
module LazyResource {
  import opened Common

  /** The shader stage a `LazyShader` compiles for. */
  datatype Stage = VertexStage | GeometryStage | PixelStage

  /** `LazyShader<T>`: the cached object (`mResource`), the pinned device
      (`mAssociatedDevice`) and counters of the native calls made so far:
      shader-creation calls, objects they created, and `Release` calls. */
  datatype LazyShader = LazyShader(
    stage: Stage,
    resource: Option<Handle>,
    associatedDevice: Option<Device>,
    compileCalls: nat,
    created: nat,
    released: nat)

  /** A freshly constructed lazy shader: nothing cached, no device. */
  function NewLazyShader(stage: Stage): (s: LazyShader)
    ensures s.resource.None? && s.associatedDevice.None?
    ensures Balanced(s)
  {
    LazyShader(stage, None, None, 0, 0, 0)
  }

  /** Every created object is either still cached or has been released. */
  predicate Balanced(s: LazyShader)
  {
    s.created == s.released + (if s.resource.Some? then 1 else 0)
  }

  /** The debug assertion of `checkAssociatedDevice`. */
  predicate CanBindDevice(s: LazyShader, device: Device)
  {
    s.associatedDevice.None? || s.associatedDevice == Some(device)
  }

  /** `checkAssociatedDevice`: requires the device to be unset or the same,
      then records it. Once a device is pinned the state does not change. */
  function CheckAssociatedDevice(s: LazyShader, device: Device): (s': LazyShader)
    requires CanBindDevice(s, device)
    ensures s'.associatedDevice == Some(device)
    ensures s'.(associatedDevice := s.associatedDevice) == s
    ensures s.associatedDevice.Some? ==> s' == s
  {
    s.(associatedDevice := Some(device))
  }

  /** A `resolve` call's outcome: the new state and the returned object. */
  datatype Resolved = Resolved(shader: LazyShader, result: Option<Handle>)

  /** `LazyShader<T>::resolve(device)`. `compiled` is what the stage's
      `Compile*` entry point returns for this device and byte code. */
  function Resolve(s: LazyShader, device: Device, compiled: Option<Handle>): (r: Resolved)
    requires CanBindDevice(s, device)
    ensures r.shader.associatedDevice == Some(device)
    ensures r.result == r.shader.resource
    ensures s.resource.Some? ==> r.result == s.resource && r.shader.compileCalls == s.compileCalls
    ensures s.resource.None? ==> r.result == compiled && r.shader.compileCalls == s.compileCalls + 1
    ensures r.shader.stage == s.stage && r.shader.released == s.released
    ensures Balanced(s) ==> Balanced(r.shader)
  {
    var pinned := CheckAssociatedDevice(s, device);
    if pinned.resource.None? then
      var created := if compiled.Some? then 1 else 0;
      var s' := pinned.(resource := compiled, compileCalls := pinned.compileCalls + 1,
                        created := pinned.created + created);
      Resolved(s', compiled)
    else
      Resolved(pinned, pinned.resource)
  }

  /** `release()` (`SafeRelease(mResource)`): releases a cached object once
      and forgets it; with nothing cached it does nothing. The pinned device
      is kept, so a later `resolve` compiles again for that same device. */
  function Release(s: LazyShader): (s': LazyShader)
    ensures s'.resource.None?
    ensures s'.released == s.released + (if s.resource.Some? then 1 else 0)
    ensures s'.associatedDevice == s.associatedDevice && s'.created == s.created
    ensures Balanced(s) ==> Balanced(s')
  {
    if s.resource.Some? then s.(resource := None, released := s.released + 1) else s
  }

  /** Once a resolve has produced an object, resolving again (on the same
      device, whatever the compiler would now return) yields the same object
      and makes no further compile call. */
  lemma ResolveIsCached(s: LazyShader, device: Device, first: Option<Handle>, later: Option<Handle>)
    requires CanBindDevice(s, device)
    requires Resolve(s, device, first).result.Some?
    ensures var r1 := Resolve(s, device, first);
            var r2 := Resolve(r1.shader, device, later);
            r2.result == r1.result && r2.shader.compileCalls == r1.shader.compileCalls
            && r2.shader == r1.shader
  {
  }

  /** An operation on a lazy shader: a `resolve` on a device (with the
      compiler's answer), or `release`. */
  datatype ShaderOp = ResolveOp(device: Device, compiled: Option<Handle>) | ReleaseOp

  /** Runs `ops` from `s`; `None` when some `resolve` would trip the device
      assertion of `checkAssociatedDevice`. */
  function Run(s: LazyShader, ops: seq<ShaderOp>): Option<LazyShader>
    decreases |ops|
  {
    if |ops| == 0 then Some(s)
    else match ops[0]
      case ReleaseOp => Run(Release(s), ops[1..])
      case ResolveOp(device, compiled) =>
        if CanBindDevice(s, device) then Run(Resolve(s, device, compiled).shader, ops[1..])
        else None
  }

  /** Every `resolve` in `ops` uses `device`. */
  predicate AllOnDevice(ops: seq<ShaderOp>, device: Device)
  {
    forall i :: 0 <= i < |ops| && ops[i].ResolveOp? ==> ops[i].device == device
  }

  /** A lazy shader is only ever bound to one device: if a run completes
      without tripping the assertion, every resolve in it used the device the
      shader ends up pinned to (or the one it was pinned to before). Along
      the way no object leaks: created objects are cached or released. */
  lemma {:induction false} RunPinsOneDevice(s: LazyShader, ops: seq<ShaderOp>)
    requires Balanced(s)
    requires Run(s, ops).Some?
    ensures var s' := Run(s, ops).value;
            && Balanced(s')
            && (s'.associatedDevice.None? ==> s.associatedDevice.None? && forall i :: 0 <= i < |ops| ==> ops[i].ReleaseOp?)
            && (s'.associatedDevice.Some? ==> AllOnDevice(ops, s'.associatedDevice.value))
            && (s.associatedDevice.Some? ==> s'.associatedDevice == s.associatedDevice)
    decreases |ops|
  {
    if |ops| == 0 {
    } else {
      var rest := ops[1..];
      match ops[0]
      case ReleaseOp =>
        RunPinsOneDevice(Release(s), rest);
        var s' := Run(s, ops).value;
        assert Run(s, ops) == Run(Release(s), rest);
        if s'.associatedDevice.Some? {
          forall i | 0 <= i < |ops| && ops[i].ResolveOp?
            ensures ops[i].device == s'.associatedDevice.value
          {
            assert ops[i] == rest[i - 1];
          }
        } else {
          forall i | 0 <= i < |ops|
            ensures ops[i].ReleaseOp?
          {
            if i > 0 { assert ops[i] == rest[i - 1]; }
          }
        }
      case ResolveOp(device, compiled) =>
        var s1 := Resolve(s, device, compiled).shader;
        assert Run(s, ops) == Run(s1, rest);
        RunPinsOneDevice(s1, rest);
        var s' := Run(s, ops).value;
        assert s'.associatedDevice == Some(device);
        forall i | 0 <= i < |ops| && ops[i].ResolveOp?
          ensures ops[i].device == device
        {
          if i > 0 { assert ops[i] == rest[i - 1]; }
        }
    }
  }

  /** `LazyResource2<T>`: the resource (valid when it holds an object) and the
      number of `allocateResource` calls made so far. */
  datatype LazyResource2 = LazyResource2(resource: Option<Handle>, allocations: nat)

  function NewLazyResource2(): (r: LazyResource2)
    ensures !Valid(r) && r.allocations == 0
  {
    LazyResource2(None, 0)
  }

  /** `mResource.valid()`. */
  predicate Valid(r: LazyResource2)
  {
    r.resource.Some?
  }

  /** `get()`: only meaningful (asserted) on a valid resource. */
  function Get(r: LazyResource2): (h: Handle)
    requires Valid(r)
    ensures r.resource == Some(h)
  {
    r.resource.value
  }

  /** `reset()`: drops the resource; the next resolve allocates again. */
  function Reset(r: LazyResource2): (r': LazyResource2)
    ensures !Valid(r') && r'.allocations == r.allocations
  {
    r.(resource := None)
  }

  /** A `resolveImpl` call's outcome. */
  datatype ResolvedImpl = ResolvedImpl(lazy: LazyResource2, status: Status)

  /** `resolveImpl(renderer, desc, name)`. `allocation` is what
      `allocateResource(desc, ...)` yields if it is called. */
  function ResolveImpl(r: LazyResource2, allocation: Result<Handle>): (out: ResolvedImpl)
    ensures Valid(r) ==> out == ResolvedImpl(r, NoError)
    ensures !Valid(r) ==> out.lazy.allocations == r.allocations + 1
    ensures !Valid(r) && allocation.Ok? ==> out.status == NoError && out.lazy.resource == Some(allocation.value)
    ensures !Valid(r) && allocation.Err? ==> out.status == Failed(allocation.error) && !Valid(out.lazy)
    ensures out.status == NoError <==> Valid(out.lazy)
  {
    if Valid(r) then ResolvedImpl(r, NoError)
    else
      var r' := r.(allocations := r.allocations + 1);
      match allocation
      case Ok(h) => ResolvedImpl(r'.(resource := Some(h)), NoError)
      case Err(e) => ResolvedImpl(r', Failed(e))
  }

  /** The state after calling `resolveImpl` once per allocation outcome. */
  function RunResolves(r: LazyResource2, allocations: seq<Result<Handle>>): LazyResource2
    decreases |allocations|
  {
    if |allocations| == 0 then r
    else RunResolves(ResolveImpl(r, allocations[0]).lazy, allocations[1..])
  }

  /** Index of the first successful allocation outcome, or `|outcomes|`. */
  function FirstOk(outcomes: seq<Result<Handle>>): (k: nat)
    ensures k <= |outcomes|
    ensures forall i :: 0 <= i < k ==> outcomes[i].Err?
    ensures k < |outcomes| ==> outcomes[k].Ok?
    decreases |outcomes|
  {
    if |outcomes| == 0 || outcomes[0].Ok? then 0 else 1 + FirstOk(outcomes[1..])
  }

  /** Retrying after failures: starting from an invalid resource, repeated
      resolves allocate once per failed attempt plus once for the first
      success, end up holding the first successful allocation, and never
      allocate again after it; if every allocation fails the resource stays
      invalid and every attempt allocated. */
  lemma {:induction false} RetryUntilFirstSuccess(r: LazyResource2, outcomes: seq<Result<Handle>>)
    requires !Valid(r)
    ensures var k := FirstOk(outcomes);
            var r' := RunResolves(r, outcomes);
            && (k < |outcomes| ==> r'.resource == Some(outcomes[k].value) && r'.allocations == r.allocations + k + 1)
            && (k == |outcomes| ==> !Valid(r') && r'.allocations == r.allocations + |outcomes|)
    decreases |outcomes|
  {
    if |outcomes| == 0 {
    } else if outcomes[0].Ok? {
      var r1 := ResolveImpl(r, outcomes[0]).lazy;
      StaysResolved(r1, outcomes[1..]);
    } else {
      var r1 := ResolveImpl(r, outcomes[0]).lazy;
      RetryUntilFirstSuccess(r1, outcomes[1..]);
    }
  }

  /** A valid resource is never reallocated nor replaced by later resolves. */
  lemma {:induction false} StaysResolved(r: LazyResource2, outcomes: seq<Result<Handle>>)
    requires Valid(r)
    ensures RunResolves(r, outcomes) == r
    decreases |outcomes|
  {
    if |outcomes| > 0 {
      StaysResolved(ResolveImpl(r, outcomes[0]).lazy, outcomes[1..]);
    }
  }
}

=== FILE: pixel_transfer.dfy ===
/**
 `PixelTransfer11`: the buffer-to-texture copy of the D3D11 backend. The
 native API cannot copy a buffer into a texture directly, so the engine
 draws one point per destination pixel: a vertex shader reads the source
 buffer through a typed view, a geometry shader (3D destinations only)
 routes each point to its slice, and a pixel shader chosen by component type
 writes it.

 The engine's fixed resources (rasterizer and depth-stencil states, a
 constant buffer, the vertex and geometry shaders and one pixel shader per
 component type) are created by `loadResources` on the first copy. What the
 native allocator and the shader-creation entry points return is a
 parameter (`LoadOutcomes`). The counters `shadersCreated` and
 `shadersReleased` track the raw shader pointers the engine owns.
 */
module PixelTransfer {
  import opened Common
  import opened CopyParams
  import opened DeviceContext

  const VS_ERROR := "Failed to create internal buffer to texture vertex shader."
  const GS_ERROR := "Failed to create internal buffer to texture geometry shader."
  const PS_ERROR := "Failed to create internal buffer to texture pixel shader."

  datatype Engine = Engine(
    resourcesLoaded: bool,
    vertexShader: Option<Handle>,
    geometryShader: Option<Handle>,
    /** `mBufferToTexturePSMap`; an entry may hold null. */
    pixelShaders: map<ComponentType, Option<Handle>>,
    rasterizerState: Option<Handle>,
    depthStencilState: Option<Handle>,
    paramsConstantBuffer: Option<Handle>,
    /** `mParamsData`, the last constants uploaded; `None` while zeroed. A
        computed block never equals the zeroed one, because its
        `PositionScale[0]` is 2 / width, which is never zero. */
    paramsShadow: Option<CopyShaderParams>,
    shadersCreated: nat,
    shadersReleased: nat)

  /** A freshly constructed engine. */
  function NewEngine(): (e: Engine)
    ensures !e.resourcesLoaded && Ready(e) && NoShaderLeak(e)
  {
    Engine(false, None, None, map[], None, None, None, None, 0, 0)
  }

  /** The component types `buildShaderMap` creates a pixel shader for. */
  predicate IsShaderMapKey(t: ComponentType)
  {
    t == Float || t == Int || t == UnsignedInt
  }

  /** The pixel shader held for `t`, null when there is no entry. */
  function Slot(e: Engine, t: ComponentType): Option<Handle>
  {
    if t in e.pixelShaders then e.pixelShaders[t] else None
  }

  function Count(h: Option<Handle>): nat
  {
    if h.Some? then 1 else 0
  }

  /** How many shader objects the engine currently holds. */
  function HeldShaders(e: Engine): nat
  {
    Count(e.vertexShader) + Count(e.geometryShader)
    + Count(Slot(e, Float)) + Count(Slot(e, Int)) + Count(Slot(e, UnsignedInt))
  }

  /** The shader map only has the keys `buildShaderMap` inserts. */
  predicate KeysWellFormed(e: Engine)
  {
    forall t :: t in e.pixelShaders ==> IsShaderMapKey(t)
  }

  /** The shader map is well formed and every shader the engine created is
      still held or has been released. */
  predicate NoShaderLeak(e: Engine)
  {
    && KeysWellFormed(e)
    && e.shadersCreated == e.shadersReleased + HeldShaders(e)
  }

  /** `mResourcesLoaded` is only true when every resource exists. */
  predicate Ready(e: Engine)
  {
    e.resourcesLoaded ==>
      && e.vertexShader.Some? && e.geometryShader.Some?
      && e.rasterizerState.Some? && e.depthStencilState.Some? && e.paramsConstantBuffer.Some?
      && Slot(e, Float).Some? && Slot(e, Int).Some? && Slot(e, UnsignedInt).Some?
  }

  /** The shadow describes what the engine's constant buffer really holds. */
  predicate ShadowTrusted(e: Engine, ctx: Context)
  {
    e.resourcesLoaded && e.paramsShadow.Some? ==>
      && e.paramsConstantBuffer.Some?
      && e.paramsConstantBuffer.value in ctx.bufferContents
      && ctx.bufferContents[e.paramsConstantBuffer.value] == e.paramsShadow.value
  }

  /** What the allocator and the shader-creation entry points return during
      one `loadResources` call, if they are called. */
  datatype LoadOutcomes = LoadOutcomes(
    rasterizerState: Result<Handle>,
    depthStencilState: Result<Handle>,
    constantBuffer: Result<Handle>,
    vertexShader: Option<Handle>,
    geometryShader: Option<Handle>,
    floatShader: Option<Handle>,
    intShader: Option<Handle>,
    unsignedIntShader: Option<Handle>)

  datatype LoadResult = LoadResult(engine: Engine, status: Status)

  /** A shader slot after a creation step: with `keep`, a slot that already
      holds a shader keeps it and nothing is compiled; otherwise the slot is
      overwritten by the new result. */
  function Fill(slot: Option<Handle>, compiled: Option<Handle>, keep: bool): Option<Handle>
  {
    if keep && slot.Some? then slot else compiled
  }

  /** The number of shader objects a creation step creates. */
  function Created(slot: Option<Handle>, compiled: Option<Handle>, keep: bool): nat
  {
    if keep && slot.Some? then 0 else Count(compiled)
  }

  /** Whether some entry of a shader map is null. */
  predicate HasNullEntry(shaders: map<ComponentType, Option<Handle>>)
  {
    exists t :: t in shaders && shaders[t].None?
  }

  /** After the three insertions of `buildShaderMap`, a null entry exists
      when one of the three new shaders is null, and, when the map had no
      other keys, only then. */
  lemma NullEntryIffMissingShader(m: map<ComponentType, Option<Handle>>, f: Option<Handle>, i: Option<Handle>, u: Option<Handle>)
    ensures f.None? || i.None? || u.None? ==> HasNullEntry(m[Float := f][Int := i][UnsignedInt := u])
    ensures (forall t :: t in m ==> IsShaderMapKey(t)) && HasNullEntry(m[Float := f][Int := i][UnsignedInt := u]) ==>
              f.None? || i.None? || u.None?
  {
    var s := m[Float := f][Int := i][UnsignedInt := u];
    assert s[Float] == f && s[Int] == i && s[UnsignedInt] == u;
  }

  /** `buildShaderMap`: create the float, signed-integer and unsigned-integer
      pixel shaders, then fail if any entry of the map is null. */
  function BuildShaderMapWith(e: Engine, o: LoadOutcomes, keep: bool): (r: LoadResult)
    ensures r.engine == e.(pixelShaders := r.engine.pixelShaders, shadersCreated := r.engine.shadersCreated)
    ensures Slot(r.engine, Float) == Fill(Slot(e, Float), o.floatShader, keep)
    ensures Slot(r.engine, Int) == Fill(Slot(e, Int), o.intShader, keep)
    ensures Slot(r.engine, UnsignedInt) == Fill(Slot(e, UnsignedInt), o.unsignedIntShader, keep)
    ensures r.engine.shadersCreated == e.shadersCreated + Created(Slot(e, Float), o.floatShader, keep)
              + Created(Slot(e, Int), o.intShader, keep) + Created(Slot(e, UnsignedInt), o.unsignedIntShader, keep)
    ensures KeysWellFormed(e) ==> KeysWellFormed(r.engine)
    ensures keep && NoShaderLeak(e) ==> NoShaderLeak(r.engine)
    ensures r.status.NoError? ==>
              Slot(r.engine, Float).Some? && Slot(r.engine, Int).Some? && Slot(r.engine, UnsignedInt).Some?
    ensures KeysWellFormed(e) ==>
              (Slot(r.engine, Float).Some? && Slot(r.engine, Int).Some? && Slot(r.engine, UnsignedInt).Some?
               ==> r.status.NoError?)
    ensures r.status.Failed? ==> r.status.error == GlError(GL_OUT_OF_MEMORY, PS_ERROR)
  {
    var f := Fill(Slot(e, Float), o.floatShader, keep);
    var i := Fill(Slot(e, Int), o.intShader, keep);
    var u := Fill(Slot(e, UnsignedInt), o.unsignedIntShader, keep);
    var created := Created(Slot(e, Float), o.floatShader, keep)
                   + Created(Slot(e, Int), o.intShader, keep)
                   + Created(Slot(e, UnsignedInt), o.unsignedIntShader, keep);
    var shaders := e.pixelShaders[Float := f][Int := i][UnsignedInt := u];
    var e' := e.(pixelShaders := shaders, shadersCreated := e.shadersCreated + created);
    NullEntryIffMissingShader(e.pixelShaders, f, i, u);
    if HasNullEntry(shaders)
    then LoadResult(e', Failed(GlError(GL_OUT_OF_MEMORY, PS_ERROR)))
    else LoadResult(e', NoError)
  }

  /** The three allocations of `loadResources`: rasterizer state,
      depth-stencil state and constant buffer, stopping at the first error. */
  function AllocateResources(e: Engine, o: LoadOutcomes): (r: LoadResult)
    ensures r.engine == e.(rasterizerState := r.engine.rasterizerState,
                           depthStencilState := r.engine.depthStencilState,
                           paramsConstantBuffer := r.engine.paramsConstantBuffer)
    ensures r.status.NoError? <==> o.rasterizerState.Ok? && o.depthStencilState.Ok? && o.constantBuffer.Ok?
    ensures r.status.NoError? ==>
              && r.engine.rasterizerState == Some(o.rasterizerState.value)
              && r.engine.depthStencilState == Some(o.depthStencilState.value)
              && r.engine.paramsConstantBuffer == Some(o.constantBuffer.value)
    ensures o.rasterizerState.Err? ==> r == LoadResult(e, Failed(o.rasterizerState.error))
    ensures o.rasterizerState.Ok? ==> r.engine.rasterizerState == Some(o.rasterizerState.value)
    ensures o.rasterizerState.Ok? && o.depthStencilState.Err? ==>
              r.status == Failed(o.depthStencilState.error) && r.engine.depthStencilState == e.depthStencilState
    ensures o.rasterizerState.Ok? && o.depthStencilState.Ok? && o.constantBuffer.Err? ==>
              r.status == Failed(o.constantBuffer.error) && r.engine.paramsConstantBuffer == e.paramsConstantBuffer
  {
    match o.rasterizerState
    case Err(err) => LoadResult(e, Failed(err))
    case Ok(rs) =>
      var e1 := e.(rasterizerState := Some(rs));
      match o.depthStencilState
      case Err(err) => LoadResult(e1, Failed(err))
      case Ok(ds) =>
        var e2 := e1.(depthStencilState := Some(ds));
        match o.constantBuffer
        case Err(err) => LoadResult(e2, Failed(err))
        case Ok(cb) => LoadResult(e2.(paramsConstantBuffer := Some(cb)), NoError)
  }

  /** The shader half of `loadResources`: vertex shader, geometry shader, then
      `buildShaderMap`, stopping at the first null shader. */
  function CreateShaders(e: Engine, o: LoadOutcomes, keep: bool): (r: LoadResult)
    ensures r.engine == e.(vertexShader := r.engine.vertexShader, geometryShader := r.engine.geometryShader,
                           pixelShaders := r.engine.pixelShaders, shadersCreated := r.engine.shadersCreated)
    ensures keep && e.vertexShader.Some? ==> r.engine.vertexShader == e.vertexShader
    ensures keep && e.geometryShader.Some? ==> r.engine.geometryShader == e.geometryShader
    ensures keep && NoShaderLeak(e) ==> NoShaderLeak(r.engine)
    ensures r.status.NoError? ==>
              && r.engine.vertexShader.Some? && r.engine.geometryShader.Some?
              && Slot(r.engine, Float).Some? && Slot(r.engine, Int).Some? && Slot(r.engine, UnsignedInt).Some?
    ensures KeysWellFormed(e) ==>
              (r.status.NoError? <==>
                 && Fill(e.vertexShader, o.vertexShader, keep).Some?
                 && Fill(e.geometryShader, o.geometryShader, keep).Some?
                 && Fill(Slot(e, Float), o.floatShader, keep).Some?
                 && Fill(Slot(e, Int), o.intShader, keep).Some?
                 && Fill(Slot(e, UnsignedInt), o.unsignedIntShader, keep).Some?)
    ensures Fill(e.vertexShader, o.vertexShader, keep).None? ==>
              r == LoadResult(e.(vertexShader := None), Failed(GlError(GL_OUT_OF_MEMORY, VS_ERROR)))
    ensures Fill(e.vertexShader, o.vertexShader, keep).Some? && Fill(e.geometryShader, o.geometryShader, keep).None? ==>
              && r.status == Failed(GlError(GL_OUT_OF_MEMORY, GS_ERROR))
              && r.engine.geometryShader.None? && r.engine.pixelShaders == e.pixelShaders
    ensures ShaderStepsReportFirstError(e, o, keep, r.status)
  {
    var e1 := e.(vertexShader := Fill(e.vertexShader, o.vertexShader, keep),
                 shadersCreated := e.shadersCreated + Created(e.vertexShader, o.vertexShader, keep));
    assert keep && NoShaderLeak(e) ==> NoShaderLeak(e1) by {
      assert HeldShaders(e1) == HeldShaders(e) - Count(e.vertexShader) + Count(e1.vertexShader);
    }
    if e1.vertexShader.None? then LoadResult(e1, Failed(GlError(GL_OUT_OF_MEMORY, VS_ERROR)))
    else
      var e2 := e1.(geometryShader := Fill(e1.geometryShader, o.geometryShader, keep),
                    shadersCreated := e1.shadersCreated + Created(e1.geometryShader, o.geometryShader, keep));
      assert keep && NoShaderLeak(e1) ==> NoShaderLeak(e2) by {
        assert HeldShaders(e2) == HeldShaders(e1) - Count(e1.geometryShader) + Count(e2.geometryShader);
      }
      if e2.geometryShader.None? then LoadResult(e2, Failed(GlError(GL_OUT_OF_MEMORY, GS_ERROR)))
      else BuildShaderMapWith(e2, o, keep)
  }

  /** The three allocations succeed. */
  predicate AllocationsSucceed(o: LoadOutcomes)
  {
    o.rasterizerState.Ok? && o.depthStencilState.Ok? && o.constantBuffer.Ok?
  }

  /** `status` is the error of the first shader step that fails: the vertex
      shader, then the geometry shader, then the pixel-shader map. */
  predicate ShaderStepsReportFirstError(e: Engine, o: LoadOutcomes, keep: bool, status: Status)
  {
    && (Fill(e.vertexShader, o.vertexShader, keep).None? ==>
          status == Failed(GlError(GL_OUT_OF_MEMORY, VS_ERROR)))
    && (Fill(e.vertexShader, o.vertexShader, keep).Some? && Fill(e.geometryShader, o.geometryShader, keep).None? ==>
          status == Failed(GlError(GL_OUT_OF_MEMORY, GS_ERROR)))
    && (Fill(e.vertexShader, o.vertexShader, keep).Some? && Fill(e.geometryShader, o.geometryShader, keep).Some?
        && status.Failed? ==>
          status == Failed(GlError(GL_OUT_OF_MEMORY, PS_ERROR)))
  }

  /** `status` is the error of the first step of `loadResources` that fails:
      the rasterizer state, the depth-stencil state and the constant buffer
      in that order, then the shaders. */
  predicate ReportsFirstError(e: Engine, o: LoadOutcomes, keep: bool, status: Status)
  {
    && (o.rasterizerState.Err? ==> status == Failed(o.rasterizerState.error))
    && (o.rasterizerState.Ok? && o.depthStencilState.Err? ==> status == Failed(o.depthStencilState.error))
    && (o.rasterizerState.Ok? && o.depthStencilState.Ok? && o.constantBuffer.Err? ==>
          status == Failed(o.constantBuffer.error))
    && (AllocationsSucceed(o) ==> ShaderStepsReportFirstError(e, o, keep, status))
  }

  /** Whether a `loadResources` call with these outcomes succeeds (for an
      engine not yet loaded): every allocation succeeds and every shader slot
      ends up holding a shader. */
  predicate LoadSucceeds(e: Engine, o: LoadOutcomes)
  {
    && AllocationsSucceed(o)
    && Fill(e.vertexShader, o.vertexShader, true).Some?
    && Fill(e.geometryShader, o.geometryShader, true).Some?
    && Fill(Slot(e, Float), o.floatShader, true).Some?
    && Fill(Slot(e, Int), o.intShader, true).Some?
    && Fill(Slot(e, UnsignedInt), o.unsignedIntShader, true).Some?
  }

  /** `loadResources`, parameterised by whether a shader slot that already
      holds a shader is kept (`keep`) or overwritten. */
  function LoadResourcesWith(e: Engine, o: LoadOutcomes, keep: bool): (r: LoadResult)
    ensures e.resourcesLoaded ==> r == LoadResult(e, NoError)
    ensures r.status.NoError? <==> r.engine.resourcesLoaded
    ensures r.engine.shadersReleased == e.shadersReleased
    ensures !e.resourcesLoaded ==> ReportsFirstError(e, o, keep, r.status)
    ensures !e.resourcesLoaded && KeysWellFormed(e) ==>
              (r.status.NoError? <==>
                 && AllocationsSucceed(o)
                 && Fill(e.vertexShader, o.vertexShader, keep).Some?
                 && Fill(e.geometryShader, o.geometryShader, keep).Some?
                 && Fill(Slot(e, Float), o.floatShader, keep).Some?
                 && Fill(Slot(e, Int), o.intShader, keep).Some?
                 && Fill(Slot(e, UnsignedInt), o.unsignedIntShader, keep).Some?)
  {
    if e.resourcesLoaded then LoadResult(e, NoError)
    else
      var allocation := AllocateResources(e, o);
      if allocation.status.Failed? then allocation
      else
        var created := CreateShaders(allocation.engine, o, keep);
        if created.status.Failed? then created
        else LoadResult(created.engine.(paramsShadow := None, resourcesLoaded := true), NoError)
  }

  /** `loadResources` as written: every attempt stores freshly created shader
      pointers over whatever an earlier, failed attempt left in the slots. */
  function LoadResourcesAsWritten(e: Engine, o: LoadOutcomes): (r: LoadResult)
    ensures e.resourcesLoaded ==> r == LoadResult(e, NoError)
    ensures r.status.NoError? <==> r.engine.resourcesLoaded
    ensures Ready(e) ==> Ready(r.engine)
    ensures !e.resourcesLoaded ==> ReportsFirstError(e, o, false, r.status)
    ensures !e.resourcesLoaded && KeysWellFormed(e) ==>
              (r.status.NoError? <==>
                 && AllocationsSucceed(o) && o.vertexShader.Some? && o.geometryShader.Some?
                 && o.floatShader.Some? && o.intShader.Some? && o.unsignedIntShader.Some?)
  {
    LoadResourcesWith(e, o, false)
  }

  /** `loadResources` with shader creation made lazy: a shader that an
      earlier, failed attempt already created is kept rather than created
      again. A no-op once loaded; `mResourcesLoaded` is set only when every
      step succeeded, and then the shadow is zeroed. Nothing leaks. */
  function LoadResources(e: Engine, o: LoadOutcomes): (r: LoadResult)
    ensures e.resourcesLoaded ==> r == LoadResult(e, NoError)
    ensures r.status.NoError? <==> r.engine.resourcesLoaded
    ensures !e.resourcesLoaded && o.rasterizerState.Err? ==> r == LoadResult(e, Failed(o.rasterizerState.error))
    ensures r.engine.shadersReleased == e.shadersReleased
    ensures !e.resourcesLoaded ==> ReportsFirstError(e, o, true, r.status)
  {
    LoadResourcesWith(e, o, true)
  }

  /** Whichever way it ends, `loadResources` leaves `mResourcesLoaded`
      truthful. */
  lemma LoadKeepsReady(e: Engine, o: LoadOutcomes, keep: bool)
    requires Ready(e)
    ensures Ready(LoadResourcesWith(e, o, keep).engine)
  {
  }

  /** A first `loadResources` succeeds exactly when every allocation and
      every shader creation does; then the shadow is zeroed and the engine
      holds the allocated states and constant buffer. */
  lemma LoadResourcesOutcome(e: Engine, o: LoadOutcomes)
    requires !e.resourcesLoaded && KeysWellFormed(e)
    ensures var r := LoadResources(e, o);
            && (r.status.NoError? <==> LoadSucceeds(e, o))
            && (r.status.NoError? ==>
                  && r.engine.paramsShadow.None?
                  && r.engine.rasterizerState == Some(o.rasterizerState.value)
                  && r.engine.depthStencilState == Some(o.depthStencilState.value)
                  && r.engine.paramsConstantBuffer == Some(o.constantBuffer.value))
  {
  }

  /** `loadResources` never loses a shader: a shader created by an earlier
      attempt is kept, and every shader created is still held. */
  lemma LoadResourcesLeakFree(e: Engine, o: LoadOutcomes)
    requires NoShaderLeak(e)
    ensures var r := LoadResources(e, o);
            && NoShaderLeak(r.engine)
            && (e.vertexShader.Some? ==> r.engine.vertexShader == e.vertexShader)
            && (e.geometryShader.Some? ==> r.engine.geometryShader == e.geometryShader)
  {
    if !e.resourcesLoaded {
      var allocation := AllocateResources(e, o);
      assert allocation.engine.pixelShaders == e.pixelShaders;
      assert HeldShaders(allocation.engine) == HeldShaders(e);
      assert NoShaderLeak(allocation.engine);
      if allocation.status.NoError? {
        var created := CreateShaders(allocation.engine, o, true);
        assert NoShaderLeak(created.engine);
        if created.status.NoError? {
          var loaded := created.engine.(paramsShadow := None, resourcesLoaded := true);
          assert HeldShaders(loaded) == HeldShaders(created.engine);
        }
      }
    }
  }


  /** `~PixelTransfer11`: releases every pixel shader in the map and the
      vertex and geometry shaders (null entries are skipped). */
  function Destroy(e: Engine): (e': Engine)
    ensures HeldShaders(e') == 0 && e'.pixelShaders == map[]
    ensures e'.shadersReleased == e.shadersReleased + HeldShaders(e)
    ensures NoShaderLeak(e) ==> e'.shadersCreated == e'.shadersReleased
  {
    e.(vertexShader := None, geometryShader := None, pixelShaders := map[],
       shadersReleased := e.shadersReleased + HeldShaders(e))
  }

  /** The engine after one `loadResources` per outcome, from `e`. */
  function RunLoads(e: Engine, attempts: seq<LoadOutcomes>): Engine
    decreases |attempts|
  {
    if |attempts| == 0 then e else RunLoads(LoadResources(e, attempts[0]).engine, attempts[1..])
  }

  /** However many failed attempts precede success (or none succeeds), the
      engine's destruction releases every shader it ever created. */
  lemma {:induction false} AllShadersReleased(e: Engine, attempts: seq<LoadOutcomes>)
    requires NoShaderLeak(e)
    ensures NoShaderLeak(RunLoads(e, attempts))
    ensures Destroy(RunLoads(e, attempts)).shadersCreated == Destroy(RunLoads(e, attempts)).shadersReleased
    decreases |attempts|
  {
    if |attempts| > 0 {
      LoadResourcesLeakFree(e, attempts[0]);
      AllShadersReleased(LoadResources(e, attempts[0]).engine, attempts[1..]);
    }
  }

  /** As written, a retry after a failed `loadResources` leaks: when a first
      attempt on an engine holding no shaders creates the vertex shader and
      fails on the geometry shader, a successful retry overwrites the vertex
      shader pointer without releasing it, so destroying the engine releases
      one shader fewer than were created. */
  lemma LoadRetryLeaksShader(e: Engine, first: LoadOutcomes, retry: LoadOutcomes)
    requires !e.resourcesLoaded && NoShaderLeak(e) && HeldShaders(e) == 0
    requires first.rasterizerState.Ok? && first.depthStencilState.Ok? && first.constantBuffer.Ok?
    requires first.vertexShader.Some? && first.geometryShader.None?
    requires retry.rasterizerState.Ok? && retry.depthStencilState.Ok? && retry.constantBuffer.Ok?
    requires retry.vertexShader.Some? && retry.geometryShader.Some?
    requires retry.floatShader.Some? && retry.intShader.Some? && retry.unsignedIntShader.Some?
    ensures var r1 := LoadResourcesAsWritten(e, first);
            var r2 := LoadResourcesAsWritten(r1.engine, retry);
            && r1.status == Failed(GlError(GL_OUT_OF_MEMORY, GS_ERROR)) && NoShaderLeak(r1.engine)
            && r2.status.NoError? && !NoShaderLeak(r2.engine)
            && Destroy(r2.engine).shadersCreated == Destroy(r2.engine).shadersReleased + 1
  {
  }

  /** The component type a pixel shader is looked up by: signed and unsigned
      normalised formats are written by the float shader. */
  function NormalizeComponentType(t: ComponentType): (r: ComponentType)
    ensures r != SignedNormalized && r != UnsignedNormalized
    ensures r == t || r == Float
    ensures t != SignedNormalized && t != UnsignedNormalized ==> r == t
  {
    if t == SignedNormalized || t == UnsignedNormalized then Float else t
  }

  /** `findBufferToTexturePS(internalFormat)`, with `format` the table entry
      of `internalFormat`: the map entry for the normalised component type,
      null when there is none. */
  function FindBufferToTexturePS(e: Engine, format: InternalFormatInfo): (ps: Option<Handle>)
    ensures format.componentType in {Float, SignedNormalized, UnsignedNormalized} ==> ps == Slot(e, Float)
    ensures format.componentType in {Int, UnsignedInt} ==> ps == Slot(e, format.componentType)
    ensures NormalizeComponentType(format.componentType) !in e.pixelShaders ==> ps.None?
  {
    var t := NormalizeComponentType(format.componentType);
    if t in e.pixelShaders then e.pixelShaders[t] else None
  }

  /** Once loaded, the lookup finds a shader for every component type except
      `NoComponent`, normalised formats share the float shader, and the
      integer formats have their own. */
  lemma FindAfterLoad(e: Engine, format: InternalFormatInfo)
    requires Ready(e) && e.resourcesLoaded && NoShaderLeak(e)
    ensures FindBufferToTexturePS(e, format).Some? <==> format.componentType != NoComponent
    ensures format.componentType == SignedNormalized || format.componentType == UnsignedNormalized ==>
              FindBufferToTexturePS(e, format) == Slot(e, Float)
    ensures format.componentType == Int ==> FindBufferToTexturePS(e, format) == Slot(e, Int)
    ensures format.componentType == UnsignedInt ==> FindBufferToTexturePS(e, format) == Slot(e, UnsignedInt)
  {
  }

  /** The destination region lies inside the destination on all three axes. */
  predicate InBounds(destArea: Box, destSize: Extents)
  {
    && 0 <= destArea.x && destArea.x + destArea.width <= destSize.width
    && 0 <= destArea.y && destArea.y + destArea.height <= destSize.height
    && 0 <= destArea.z && destArea.z + destArea.depth <= destSize.depth
  }

  /** A 3D destination (more than one slice) needs the geometry shader. */
  predicate UsesGeometryShader(destSize: Extents)
  {
    destSize.depth > 1
  }

  /** The number of points drawn, `UINT(width * height * depth)`: one per
      pixel of the region while that product fits. */
  function DrawVertexCount(destArea: Box): (n: uint32)
    ensures 0 <= destArea.width * destArea.height * destArea.depth < UINT32_LIMIT ==>
              n == destArea.width * destArea.height * destArea.depth
  {
    ToUnsigned(destArea.width * destArea.height * destArea.depth)
  }

  /** Binds the copy shaders and the source view. */
  method BindShaders(ctx0: Context, cmds: seq<Command>, ctx: Context,
                     vs: Option<Handle>, gs: Option<Handle>, ps: Option<Handle>, srv: Handle)
    returns (cmds': seq<Command>, ctx': Context)
    requires ctx == Replay(ctx0, cmds)
    ensures ctx' == Replay(ctx0, cmds') && DrawCount(cmds') == DrawCount(cmds)
    ensures ctx' == ctx.(pipeline := ctx.pipeline.(vertexShader := vs, geometryShader := gs,
                                                   pixelShader := ps, pixelResource := Some(srv)))
  {
    cmds', ctx' := Issue(ctx0, cmds, ctx, SetVertexShader(vs));
    cmds', ctx' := Issue(ctx0, cmds', ctx', SetGeometryShader(gs));
    cmds', ctx' := Issue(ctx0, cmds', ctx', SetPixelShader(ps));
    cmds', ctx' := Issue(ctx0, cmds', ctx', SetPixelShaderResource(Some(srv)));
  }

  /** Point-list input with no input layout and no vertex buffer. */
  method BindInputAssembly(ctx0: Context, cmds: seq<Command>, ctx: Context)
    returns (cmds': seq<Command>, ctx': Context)
    requires ctx == Replay(ctx0, cmds)
    ensures ctx' == Replay(ctx0, cmds') && DrawCount(cmds') == DrawCount(cmds)
    ensures ctx' == ctx.(pipeline := ctx.pipeline.(inputLayout := None, topology := PointList,
                                                   vertexBuffer := None))
  {
    cmds', ctx' := Issue(ctx0, cmds, ctx, SetInputLayout(None));
    cmds', ctx' := Issue(ctx0, cmds', ctx', SetPrimitiveTopology(PointList));
    cmds', ctx' := Issue(ctx0, cmds', ctx', SetVertexBuffer(None));
  }

  /** Default blending, the copy's depth-stencil and rasterizer states and
      the destination render target. */
  method BindOutput(ctx0: Context, cmds: seq<Command>, ctx: Context,
                    ds: Option<Handle>, rs: Option<Handle>, rtv: Handle)
    returns (cmds': seq<Command>, ctx': Context)
    requires ctx == Replay(ctx0, cmds)
    ensures ctx' == Replay(ctx0, cmds') && DrawCount(cmds') == DrawCount(cmds)
    ensures ctx' == ctx.(pipeline := ctx.pipeline.(blendState := None, depthStencilState := ds,
                                                   rasterizerState := rs, renderTarget := Some(rtv)))
  {
    cmds', ctx' := Issue(ctx0, cmds, ctx, SetBlendState(None));
    cmds', ctx' := Issue(ctx0, cmds', ctx', SetDepthStencilState(ds));
    cmds', ctx' := Issue(ctx0, cmds', ctx', SetRasterizerState(rs));
    cmds', ctx' := Issue(ctx0, cmds', ctx', SetRenderTarget(Some(rtv)));
  }

  /** Binds the constant buffer, sets a viewport covering the destination and
      draws `vertexCount` points. */
  method DrawPoints(ctx0: Context, cmds: seq<Command>, ctx: Context,
                    constantBuffer: Handle, viewport: Viewport, vertexCount: uint32)
    returns (cmds': seq<Command>, ctx': Context)
    requires ctx == Replay(ctx0, cmds)
    ensures ctx' == Replay(ctx0, cmds') && DrawCount(cmds') == DrawCount(cmds) + 1
    ensures var p := ctx.pipeline.(vertexConstantBuffer := Some(constantBuffer), viewport := Some(viewport));
            var constants := if constantBuffer in ctx.bufferContents then Some(ctx.bufferContents[constantBuffer]) else None;
            ctx' == ctx.(pipeline := p, draws := ctx.draws + [DrawRecord(p, constants, vertexCount)])
  {
    cmds', ctx' := Issue(ctx0, cmds, ctx, SetVertexConstantBuffer(Some(constantBuffer)));
    cmds', ctx' := Issue(ctx0, cmds', ctx', SetViewport(viewport));
    cmds', ctx' := Issue(ctx0, cmds', ctx', Draw(vertexCount));
  }

  /** Unbinds the source view and the constant buffer, and tells the
      renderer its cached state is stale. */
  method Unbind(ctx0: Context, cmds: seq<Command>, ctx: Context)
    returns (cmds': seq<Command>, ctx': Context)
    requires ctx == Replay(ctx0, cmds)
    ensures ctx' == Replay(ctx0, cmds') && DrawCount(cmds') == DrawCount(cmds)
    ensures ctx' == ctx.(pipeline := ctx.pipeline.(pixelResource := None, vertexConstantBuffer := None),
                         allStateDirty := true)
  {
    cmds', ctx' := Issue(ctx0, cmds, ctx, SetPixelShaderResource(None));
    cmds', ctx' := Issue(ctx0, cmds', ctx', SetVertexConstantBuffer(None));
    cmds', ctx' := Issue(ctx0, cmds', ctx', MarkAllStateDirty);
  }

  /** The pipeline of the copy's draw: the copy shaders (the geometry shader
      only for a 3D destination), the source view, point-list input without
      layout or vertex buffer, default blending, the copy's depth-stencil and
      rasterizer states, the destination render target, the engine's
      constant buffer and a viewport covering the whole destination. */
  function CopyPipeline(e: Engine, destSize: Extents, pixelShader: Option<Handle>,
                        sourceView: Handle, renderTargetView: Handle): Pipeline
  {
    Pipeline(
      e.vertexShader,
      if UsesGeometryShader(destSize) then e.geometryShader else None,
      pixelShader, Some(sourceView), None, PointList, None, None,
      e.depthStencilState, e.rasterizerState, Some(renderTargetView), e.paramsConstantBuffer,
      Some(Viewport(0, 0, destSize.width, destSize.height)))
  }

  /** The calls of a copy once the resources are loaded, the pixel shader
      found and the source view obtained. */
  method IssueCopy(e: Engine, ctx: Context, params: CopyShaderParams, destSize: Extents,
                   pixelShader: Option<Handle>, sourceView: Handle, renderTargetView: Handle,
                   vertexCount: uint32)
    returns (e': Engine, ctx': Context, cmds: seq<Command>)
    requires e.resourcesLoaded && Ready(e) && ShadowTrusted(e, ctx)
    ensures ctx' == Replay(ctx, cmds)
    ensures e' == e.(paramsShadow := Some(params)) && ShadowTrusted(e', ctx')
    ensures DrawCount(cmds) == 1
    ensures ctx'.draws == ctx.draws + [DrawRecord(CopyPipeline(e, destSize, pixelShader, sourceView, renderTargetView),
                                                  Some(params), vertexCount)]
    ensures ctx'.pipeline == CopyPipeline(e, destSize, pixelShader, sourceView, renderTargetView)
                               .(pixelResource := None, vertexConstantBuffer := None)
    ensures ctx'.allStateDirty
    ensures ctx'.uploads == ctx.uploads + (if e.paramsShadow == Some(params) then 0 else 1)
  {
    var geometryShader := if UsesGeometryShader(destSize) then e.geometryShader else None;
    cmds := [];
    ctx' := ctx;
    cmds, ctx' := BindShaders(ctx, cmds, ctx', e.vertexShader, geometryShader, pixelShader, sourceView);
    cmds, ctx' := BindInputAssembly(ctx, cmds, ctx');
    cmds, ctx' := BindOutput(ctx, cmds, ctx', e.depthStencilState, e.rasterizerState, renderTargetView);
    ghost var bound := ctx';

    var constantBuffer := e.paramsConstantBuffer.value;
    if e.paramsShadow != Some(params) {
      cmds, ctx' := Issue(ctx, cmds, ctx', SetBufferData(constantBuffer, params));
    }
    e' := e.(paramsShadow := Some(params));
    assert ctx'.pipeline == bound.pipeline && ctx'.draws == ctx.draws;
    assert constantBuffer in ctx'.bufferContents && ctx'.bufferContents[constantBuffer] == params;
    cmds, ctx' := DrawPoints(ctx, cmds, ctx', constantBuffer,
                             Viewport(0, 0, destSize.width, destSize.height), vertexCount);
    cmds, ctx' := Unbind(ctx, cmds, ctx');
  }

  /** `copyBufferToTexture(unpack, offset, destRenderTarget,
      destinationFormat, sourcePixelsType, destArea)`.
      `destSize` and `renderTargetView` come from the render target;
      `destFormat` is the table entry of `destinationFormat` and
      `sourceFormat` that of the sized format the source pixels are read as;
      `sourceView` is what `getSRV` returns for the source buffer. Returns the
      engine and context afterwards and the calls made, in order. The
      constants are uploaded only when they differ from the shadow, and the
      draw reads the new constants either way. */
  method CopyBufferToTexture(
    e: Engine, ctx: Context, o: LoadOutcomes,
    unpack: PixelUnpackState, offset: uint32,
    destSize: Extents, renderTargetView: Handle,
    destFormat: InternalFormatInfo, sourceFormat: InternalFormatInfo,
    sourceView: Result<Handle>, destArea: Box)
    returns (e': Engine, ctx': Context, cmds: seq<Command>, status: Status)
    requires Ready(e) && NoShaderLeak(e) && ShadowTrusted(e, ctx)
    requires InBounds(destArea, destSize)
    requires IsShaderMapKey(NormalizeComponentType(destFormat.componentType))
    requires sourceFormat.pixelBytes > 0
    ensures ctx' == Replay(ctx, cmds)
    ensures Ready(e') && NoShaderLeak(e') && ShadowTrusted(e', ctx')
    ensures LoadResources(e, o).status.Failed? ==> status == LoadResources(e, o).status
    ensures LoadResources(e, o).status.NoError? && sourceView.Err? ==> status == Failed(sourceView.error)
    ensures status.NoError? <==> LoadResources(e, o).status.NoError? && sourceView.Ok?
    ensures status.Failed? ==> cmds == [] && ctx' == ctx && e' == LoadResources(e, o).engine
    ensures status.NoError? ==>
              && e'.resourcesLoaded
              && e' == LoadResources(e, o).engine.(paramsShadow :=
                         Some(SetBufferToTextureCopyParams(destArea, destSize, sourceFormat, unpack, offset)))
    ensures status.NoError? ==>
              var params := SetBufferToTextureCopyParams(destArea, destSize, sourceFormat, unpack, offset);
              var pipeline := CopyPipeline(e', destSize, FindBufferToTexturePS(e', destFormat),
                                           sourceView.value, renderTargetView);
              && DrawCount(cmds) == 1
              && ctx'.draws == ctx.draws + [DrawRecord(pipeline, Some(params), DrawVertexCount(destArea))]
              && pipeline.vertexShader.Some? && pipeline.pixelShader.Some?
              && (pipeline.geometryShader.Some? <==> UsesGeometryShader(destSize))
              && pipeline.depthStencilState.Some? && pipeline.rasterizerState.Some?
              && pipeline.vertexConstantBuffer.Some?
              && ctx'.pipeline.pixelResource.None? && ctx'.pipeline.vertexConstantBuffer.None?
              && ctx'.allStateDirty
              && e'.paramsShadow == Some(params)
              && ctx'.uploads == ctx.uploads + (if LoadResources(e, o).engine.paramsShadow == Some(params) then 0 else 1)
  {
    var loaded := LoadResources(e, o);
    LoadKeepsReady(e, o, true);
    LoadResourcesLeakFree(e, o);
    if !e.resourcesLoaded {
      LoadResourcesOutcome(e, o);
    }
    e' := loaded.engine;
    ctx' := ctx;
    cmds := [];
    if loaded.status.Failed? {
      status := loaded.status;
      return;
    }
    var pixelShader := FindBufferToTexturePS(e', destFormat);
    if sourceView.Err? {
      status := Failed(sourceView.error);
      return;
    }
    var params := SetBufferToTextureCopyParams(destArea, destSize, sourceFormat, unpack, offset);
    e', ctx', cmds := IssueCopy(e', ctx, params, destSize, pixelShader, sourceView.value, renderTargetView,
                                DrawVertexCount(destArea));
    status := NoError;
  }
}

=== FILE: texture_helper.dfy ===
/**
 Ownership of native textures in the D3D11 renderer.

 `GenericData` is the record a `TextureHelper11` shares (through
 `std::shared_ptr`) with its copies: the resource type, the native object
 and the resource manager to notify. Its destructor notifies the manager, if
 any, and then releases the object; the shared pointer runs it when the last
 copy goes away. `TextureHelper11` wraps a 2D or 3D texture and caches the
 format, extents and sample count read from the texture's descriptor.

 Native calls appear as events: `OnReleaseResource` (the manager's hook) and
 `ReleaseObject` (`IUnknown::Release`).
 */
module TextureHelper {
  import opened Common

  /** The resource kinds of the resource manager that appear in this model. */
  datatype ResourceType =
    | BufferResource | BlendState | DepthStencilState | RasterizerState
    | Texture2D | Texture3D | Last

  /** Identity of a `ResourceManager11`. */
  type Manager = nat

  datatype GenericData = GenericData(
    resourceType: ResourceType,
    nativeObject: Option<Handle>,
    manager: Option<Manager>)

  /** A default-constructed `GenericData`. */
  function NewGenericData(): GenericData
  {
    GenericData(Last, None, None)
  }

  datatype ReleaseEvent =
    | OnReleaseResource(manager: Manager, resourceType: ResourceType, nativeObject: Handle)
    | ReleaseObject(nativeObject: Handle)

  /** The objects released by `events`, with multiplicity. */
  function ReleasedObjects(events: seq<ReleaseEvent>): multiset<Handle>
    decreases |events|
  {
    if |events| == 0 then multiset{}
    else (if events[0].ReleaseObject? then multiset{events[0].nativeObject} else multiset{})
         + ReleasedObjects(events[1..])
  }

  /** The (manager, resource type, object) notifications in `events`, with
      multiplicity. */
  function Notifications(events: seq<ReleaseEvent>): multiset<(Manager, ResourceType, Handle)>
    decreases |events|
  {
    if |events| == 0 then multiset{}
    else (if events[0].OnReleaseResource? then multiset{(events[0].manager, events[0].resourceType, events[0].nativeObject)} else multiset{})
         + Notifications(events[1..])
  }

  lemma {:induction false} EventsAppend(a: seq<ReleaseEvent>, b: seq<ReleaseEvent>)
    ensures ReleasedObjects(a + b) == ReleasedObjects(a) + ReleasedObjects(b)
    ensures Notifications(a + b) == Notifications(a) + Notifications(b)
    decreases |a|
  {
    if |a| == 0 {
      assert a + b == b;
    } else {
      assert (a + b)[1..] == a[1..] + b;
      EventsAppend(a[1..], b);
    }
  }

  /** What a holder of `d` owns: its object, if any. */
  function HeldObject(d: GenericData): multiset<Handle>
  {
    if d.nativeObject.Some? then multiset{d.nativeObject.value} else multiset{}
  }

  /** The notification `d`'s destruction is due to make, if any. */
  function PendingNotification(d: GenericData): multiset<(Manager, ResourceType, Handle)>
  {
    if d.nativeObject.Some? && d.manager.Some?
    then multiset{(d.manager.value, d.resourceType, d.nativeObject.value)}
    else multiset{}
  }

  datatype Destroyed = Destroyed(data: GenericData, events: seq<ReleaseEvent>)

  /** `~GenericData()`: with an object, notify the manager (when there is one)
      and then release the object, leaving both null; with no object, do
      nothing (a manager without an object is left as it is). */
  function DestroyGenericData(d: GenericData): (r: Destroyed)
    ensures d.nativeObject.None? ==> r == Destroyed(d, [])
    ensures d.nativeObject.Some? ==> r.data.nativeObject.None? && r.data.manager.None?
    ensures ReleasedObjects(r.events) == HeldObject(d)
    ensures Notifications(r.events) == PendingNotification(d)
    ensures d.nativeObject.Some? ==> r.events[|r.events| - 1] == ReleaseObject(d.nativeObject.value)
    ensures d.nativeObject.Some? && d.manager.Some? ==>
              r.events[0] == OnReleaseResource(d.manager.value, d.resourceType, d.nativeObject.value)
  {
    match d.nativeObject
    case None => Destroyed(d, [])
    case Some(obj) =>
      var notify := if d.manager.Some? then [OnReleaseResource(d.manager.value, d.resourceType, obj)] else [];
      var events := notify + [ReleaseObject(obj)];
      EventsAppend(notify, [ReleaseObject(obj)]);
      Destroyed(d.(nativeObject := None, manager := None), events)
  }

  /** A `GenericData` shared by `owners` holders, with the events its
      destruction has produced so far. */
  datatype Shared = Shared(data: GenericData, owners: nat, events: seq<ReleaseEvent>)

  /** The first holder takes ownership of `d`. */
  function Share(d: GenericData): Shared
  {
    Shared(d, 1, [])
  }

  datatype OwnerOp = CopyOp | DropOp

  /** Copying a holder adds an owner; dropping one removes it and, for the
      last owner, runs the destructor. `None` when an operation is applied to
      data nobody owns any more. */
  function RunOwners(s: Shared, ops: seq<OwnerOp>): Option<Shared>
    decreases |ops|
  {
    if |ops| == 0 then Some(s)
    else if s.owners == 0 then None
    else match ops[0]
      case CopyOp => RunOwners(s.(owners := s.owners + 1), ops[1..])
      case DropOp =>
        if s.owners == 1 then
          var r := DestroyGenericData(s.data);
          RunOwners(Shared(r.data, 0, s.events + r.events), ops[1..])
        else RunOwners(s.(owners := s.owners - 1), ops[1..])
  }

  /** Whatever the interleaving of copies and drops, nothing is released or
      notified while an owner remains, and once the last owner is gone the
      object has been released exactly once and the manager notified at most
      once. */
  lemma {:induction false} SharedReleaseOnce(s: Shared, ops: seq<OwnerOp>)
    requires s.owners > 0 && s.events == []
    requires RunOwners(s, ops).Some?
    ensures var s' := RunOwners(s, ops).value;
            && (s'.owners > 0 ==> s' == s.(owners := s'.owners))
            && (s'.owners == 0 ==> ReleasedObjects(s'.events) == HeldObject(s.data)
                                   && Notifications(s'.events) == PendingNotification(s.data))
    decreases |ops|
  {
    if |ops| > 0 {
      match ops[0]
      case CopyOp =>
        SharedReleaseOnce(s.(owners := s.owners + 1), ops[1..]);
      case DropOp =>
        if s.owners == 1 {
          var r := DestroyGenericData(s.data);
          var dead := Shared(r.data, 0, s.events + r.events);
          assert s.events + r.events == r.events;
        } else {
          SharedReleaseOnce(s.(owners := s.owners - 1), ops[1..]);
        }
    }
  }

  function Repeat(op: OwnerOp, n: nat): (ops: seq<OwnerOp>)
    ensures |ops| == n && forall i :: 0 <= i < n ==> ops[i] == op
  {
    if n == 0 then [] else [op] + Repeat(op, n - 1)
  }

  /** Running only copies adds that many owners. */
  lemma {:induction false} RunCopies(s: Shared, n: nat, rest: seq<OwnerOp>)
    requires s.owners > 0
    ensures RunOwners(s, Repeat(CopyOp, n) + rest) == RunOwners(s.(owners := s.owners + n), rest)
    decreases n
  {
    if n > 0 {
      var ops := Repeat(CopyOp, n) + rest;
      assert ops[0] == CopyOp;
      assert ops[1..] == Repeat(CopyOp, n - 1) + rest;
      assert RunOwners(s, ops) == RunOwners(s.(owners := s.owners + 1), ops[1..]);
      RunCopies(s.(owners := s.owners + 1), n - 1, rest);
      assert s.(owners := s.owners + 1).(owners := s.owners + 1 + (n - 1)) == s.(owners := s.owners + n);
    } else {
      assert Repeat(CopyOp, 0) + rest == rest;
    }
  }

  /** A handle copied `n` times and then all `n + 1` holders dropped: the
      object is released exactly once, and the manager notified at most once
      (once if there is one). */
  lemma CopiesThenDrops(d: GenericData, n: nat)
    ensures var s' := RunOwners(Share(d), Repeat(CopyOp, n) + Repeat(DropOp, n + 1));
            && s'.Some? && s'.value.owners == 0
            && ReleasedObjects(s'.value.events) == HeldObject(d)
            && Notifications(s'.value.events) == PendingNotification(d)
  {
    var ops := Repeat(CopyOp, n) + Repeat(DropOp, n + 1);
    RunCopies(Share(d), n, Repeat(DropOp, n + 1));
    var many := Share(d).(owners := 1 + n);
    assert Repeat(DropOp, n + 1) == Repeat(DropOp, n) + [DropOp];
    RunDropsThenLast(many, n);
    SharedReleaseOnce(Share(d), ops);
  }

  lemma {:induction false} RunDropsThenLast(s: Shared, n: nat)
    requires s.owners == n + 1
    ensures RunOwners(s, Repeat(DropOp, n) + [DropOp]).Some?
    ensures RunOwners(s, Repeat(DropOp, n) + [DropOp]).value.owners == 0
    decreases n
  {
    if n == 0 {
      assert Repeat(DropOp, 0) + [DropOp] == [DropOp];
    } else {
      assert (Repeat(DropOp, n) + [DropOp])[1..] == Repeat(DropOp, n - 1) + [DropOp];
      RunDropsThenLast(s.(owners := s.owners - 1), n - 1);
    }
  }

  /** The parts of `D3D11_TEXTURE2D_DESC` / `D3D11_TEXTURE3D_DESC` the helper
      caches. */
  datatype TextureDesc =
    | Texture2DDesc(width: uint32, height: uint32, sampleCount: uint32)
    | Texture3DDesc(width: uint32, height: uint32, depth: uint32)

  /** Identity of a `d3d11::Format` entry of the format table. */
  type FormatId = nat

  /** `TextureHelper11`: the shared data (seen from this holder), the format
      entry, and the metadata derived from the texture's descriptor. */
  datatype TextureHelper11 = TextureHelper11(
    data: GenericData,
    formatSet: Option<FormatId>,
    extents: Extents,
    sampleCount: int)

  function NewTextureHelper(): (t: TextureHelper11)
    ensures !Valid(t) && !Is2D(t) && !Is3D(t)
  {
    TextureHelper11(NewGenericData(), None, Extents(0, 0, 0), 0)
  }

  /** `valid()`: the helper holds a native object. */
  predicate Valid(t: TextureHelper11)
  {
    t.data.nativeObject.Some?
  }

  /** `is2D()`. */
  predicate Is2D(t: TextureHelper11)
    ensures Is2D(t) ==> !Is3D(t)
  {
    t.data.resourceType == Texture2D
  }

  /** `is3D()`. */
  predicate Is3D(t: TextureHelper11)
  {
    t.data.resourceType == Texture3D
  }

  /** The resource type of the texture a descriptor describes. */
  function DescType(desc: TextureDesc): ResourceType
  {
    if desc.Texture2DDesc? then Texture2D else Texture3D
  }

  /** `initDesc`: the type, extents and sample count a descriptor implies. */
  function InitDesc(t: TextureHelper11, desc: TextureDesc): (t': TextureHelper11)
    ensures Is2D(t') <==> desc.Texture2DDesc?
    ensures Is3D(t') <==> desc.Texture3DDesc?
    ensures t'.extents.width == desc.width && t'.extents.height == desc.height
    ensures t'.extents.depth == (if desc.Texture3DDesc? then desc.depth else 1)
    ensures t'.sampleCount >= 1 || desc.Texture2DDesc?
    ensures t'.data.nativeObject == t.data.nativeObject && t'.data.manager == t.data.manager
    ensures t'.formatSet == t.formatSet
  {
    match desc
    case Texture2DDesc(w, h, samples) =>
      t.(data := t.data.(resourceType := Texture2D), extents := Extents(w, h, 1), sampleCount := samples)
    case Texture3DDesc(w, h, d) =>
      t.(data := t.data.(resourceType := Texture3D), extents := Extents(w, h, d), sampleCount := 1)
  }

  /** `set(object, format)`: attach a passed-in object to an empty helper.
      The helper does not own a manager for it. `desc` is the object's own
      descriptor, as `getDesc` reads it back. */
  function Set(t: TextureHelper11, obj: Handle, format: FormatId, desc: TextureDesc): (t': TextureHelper11)
    requires !Valid(t)
    ensures Valid(t') && t'.data.nativeObject == Some(obj) && t'.data.manager.None?
    ensures t'.formatSet == Some(format)
    ensures Is2D(t') <==> desc.Texture2DDesc?
    ensures Is3D(t') <==> desc.Texture3DDesc?
  {
    var attached := t.(formatSet := Some(format), data := t.data.(nativeObject := Some(obj), manager := None));
    InitDesc(attached, desc)
  }

  /** A passed-in object attached with `set` is released exactly once when
      the helper's data is destroyed, and no manager hears of it. */
  lemma SetThenDestroy(t: TextureHelper11, obj: Handle, format: FormatId, desc: TextureDesc)
    requires !Valid(t)
    ensures var r := DestroyGenericData(Set(t, obj, format, desc).data);
            ReleasedObjects(r.events) == multiset{obj} && Notifications(r.events) == multiset{}
  {
  }

  datatype Swapped = Swapped(helper: TextureHelper11, texture: GenericData)

  /** `init(std::move(texture), desc, format)`: exchanges the manager and the
      object with the freshly allocated typed `texture`, then caches the format
      and the descriptor's metadata. */
  function Init(t: TextureHelper11, texture: GenericData, desc: TextureDesc, format: FormatId): (r: Swapped)
    ensures r.helper.data.nativeObject == texture.nativeObject && r.texture.nativeObject == t.data.nativeObject
    ensures r.helper.data.manager == texture.manager && r.texture.manager == t.data.manager
    ensures r.texture.resourceType == texture.resourceType
    ensures r.helper.formatSet == Some(format)
    ensures Is2D(r.helper) <==> desc.Texture2DDesc?
    ensures Is3D(r.helper) <==> desc.Texture3DDesc?
  {
    var helperData := t.data.(manager := texture.manager, nativeObject := texture.nativeObject);
    var textureData := texture.(manager := t.data.manager, nativeObject := t.data.nativeObject);
    Swapped(InitDesc(t.(data := helperData, formatSet := Some(format)), desc), textureData)
  }

  /** `init` loses and duplicates nothing: destroying both sides afterwards
      releases exactly the objects the two sides held before. The resource
      type is not swapped, so each object is reported under the type of the
      side it moved to: the texture's object under the descriptor's type, and
      the helper's old object under the texture's type. When the helper held
      nothing and the texture's type matches its descriptor, as for a freshly
      created texture, these are exactly the notifications the two sides
      were due to make. */
  lemma InitThenDestroyBoth(t: TextureHelper11, texture: GenericData, desc: TextureDesc, format: FormatId)
    ensures var r := Init(t, texture, desc, format);
            var a := DestroyGenericData(r.helper.data);
            var b := DestroyGenericData(r.texture);
            && ReleasedObjects(a.events + b.events) == HeldObject(t.data) + HeldObject(texture)
            && Notifications(a.events + b.events)
                 == PendingNotification(texture.(resourceType := DescType(desc)))
                    + PendingNotification(t.data.(resourceType := texture.resourceType))
    ensures var r := Init(t, texture, desc, format);
            var a := DestroyGenericData(r.helper.data);
            var b := DestroyGenericData(r.texture);
            !Valid(t) && texture.resourceType == DescType(desc) ==>
              Notifications(a.events + b.events) == PendingNotification(t.data) + PendingNotification(texture)
  {
    var r := Init(t, texture, desc, format);
    DestroyBoth(r.helper.data, r.texture);
    SameOwnership(r.helper.data, texture.(resourceType := DescType(desc)));
    SameOwnership(r.texture, t.data.(resourceType := texture.resourceType));
  }

  /** What a record's destruction releases and notifies depends only on its
      type, object and manager. */
  lemma SameOwnership(d1: GenericData, d2: GenericData)
    requires d1.resourceType == d2.resourceType
    requires d1.nativeObject == d2.nativeObject && d1.manager == d2.manager
    ensures HeldObject(d1) == HeldObject(d2) && PendingNotification(d1) == PendingNotification(d2)
  {
  }

  /** Destroying two records releases and notifies what each was due to. */
  lemma DestroyBoth(d1: GenericData, d2: GenericData)
    ensures var a := DestroyGenericData(d1);
            var b := DestroyGenericData(d2);
            && ReleasedObjects(a.events + b.events) == HeldObject(d1) + HeldObject(d2)
            && Notifications(a.events + b.events) == PendingNotification(d1) + PendingNotification(d2)
  {
    EventsAppend(DestroyGenericData(d1).events, DestroyGenericData(d2).events);
  }
}

=== FILE: workarounds.dfy ===
/**
 The workaround flag records of the D3D backends: `D3DCompilerWorkarounds`
 (options passed to the HLSL compiler) and `WorkaroundsD3D` (driver and
 hardware defects). Every flag is a plain boolean that is false unless the
 device fingerprint turns it on, so a default-constructed record enables
 nothing.
 */
module Workarounds {

  datatype D3DCompilerWorkarounds = D3DCompilerWorkarounds(
    skipOptimization: bool,
    useMaxOptimization: bool,
    /** Needed for NaNs to behave. */
    enableIEEEStrictness: bool)

  /** Names of the compiler flags, for talking about sets of enabled flags. */
  datatype CompilerFlag = SkipOptimization | UseMaxOptimization | EnableIEEEStrictness

  /** The record as default member initialisers leave it. */
  function DefaultCompilerWorkarounds(): (w: D3DCompilerWorkarounds)
    ensures EnabledCompilerFlags(w) == {}
  {
    D3DCompilerWorkarounds(false, false, false)
  }

  /** Whether `flag` is switched on in `w`. */
  predicate IsCompilerFlagEnabled(w: D3DCompilerWorkarounds, flag: CompilerFlag)
  {
    match flag
    case SkipOptimization => w.skipOptimization
    case UseMaxOptimization => w.useMaxOptimization
    case EnableIEEEStrictness => w.enableIEEEStrictness
  }

  /** The flags switched on in `w`. */
  function EnabledCompilerFlags(w: D3DCompilerWorkarounds): set<CompilerFlag>
  {
    set f: CompilerFlag | IsCompilerFlagEnabled(w, f)
  }

  /** The record that switches on exactly the flags in `flags`. */
  function CompilerWorkaroundsWith(flags: set<CompilerFlag>): (w: D3DCompilerWorkarounds)
    ensures EnabledCompilerFlags(w) == flags
  {
    D3DCompilerWorkarounds(
      SkipOptimization in flags, UseMaxOptimization in flags, EnableIEEEStrictness in flags)
  }

  /** A compiler-workaround record is determined by the set of flags it enables. */
  lemma CompilerFlagsRoundTrip(w: D3DCompilerWorkarounds)
    ensures CompilerWorkaroundsWith(EnabledCompilerFlags(w)) == w
  {
  }

  datatype WorkaroundsD3D = WorkaroundsD3D(
    /** Compact the colour attachments so unused or null render targets vanish. */
    mrtPerfWorkaround: bool,
    setDataFasterThanImageUpload: bool,
    /** Feature level 9_3 cannot clamp sampling to level zero; keep two copies. */
    zeroMaxLodWorkaround: bool,
    /** No geometry shaders: emulate point sprites with instanced quads. */
    useInstancedPointSpriteEmulation: bool,
    /** Staging-to-depth/stencil copies trigger a driver timeout; copy twice. */
    depthStencilBlitExtraCopy: bool,
    /** Expand integer `pow` into multiplications for an affected HLSL optimiser. */
    expandIntegerPowExpressions: bool)

  datatype Flag =
    | MrtPerfWorkaround
    | SetDataFasterThanImageUpload
    | ZeroMaxLodWorkaround
    | UseInstancedPointSpriteEmulation
    | DepthStencilBlitExtraCopy
    | ExpandIntegerPowExpressions

  /** The record as default member initialisers leave it. */
  function DefaultWorkarounds(): (w: WorkaroundsD3D)
    ensures EnabledFlags(w) == {}
  {
    WorkaroundsD3D(false, false, false, false, false, false)
  }

  /** Whether `flag` is switched on in `w`. */
  predicate IsEnabled(w: WorkaroundsD3D, flag: Flag)
  {
    match flag
    case MrtPerfWorkaround => w.mrtPerfWorkaround
    case SetDataFasterThanImageUpload => w.setDataFasterThanImageUpload
    case ZeroMaxLodWorkaround => w.zeroMaxLodWorkaround
    case UseInstancedPointSpriteEmulation => w.useInstancedPointSpriteEmulation
    case DepthStencilBlitExtraCopy => w.depthStencilBlitExtraCopy
    case ExpandIntegerPowExpressions => w.expandIntegerPowExpressions
  }

  /** The flags switched on in `w`. */
  function EnabledFlags(w: WorkaroundsD3D): set<Flag>
  {
    set f: Flag | IsEnabled(w, f)
  }

  /** The record that switches on exactly the flags in `flags`. */
  function WorkaroundsWith(flags: set<Flag>): (w: WorkaroundsD3D)
    ensures EnabledFlags(w) == flags
  {
    WorkaroundsD3D(
      MrtPerfWorkaround in flags,
      SetDataFasterThanImageUpload in flags,
      ZeroMaxLodWorkaround in flags,
      UseInstancedPointSpriteEmulation in flags,
      DepthStencilBlitExtraCopy in flags,
      ExpandIntegerPowExpressions in flags)
  }

  /** A workaround record is determined by the set of flags it enables, and
      the default record is the one built from no flags. */
  lemma FlagsRoundTrip(w: WorkaroundsD3D)
    ensures WorkaroundsWith(EnabledFlags(w)) == w
    ensures WorkaroundsWith({}) == DefaultWorkarounds()
  {
  }
}
